=== FILE: README.md ===
# Strivacity React Native SDK: configuration checks, native arguments and token revocation

This project models the JavaScript layer of the Strivacity React Native SDK
(`src/index.tsx`, with the configuration types of `src/types.ts`) in Dafny.
That layer sits between an app and the native authentication engine. It does four things:

- It checks a configuration object with `invariant` calls. Each check either
  passes or raises an error with a fixed message, and the first failing
  check wins.
- It turns the configuration into the positional argument list of a native
  call (`prefetchConfiguration`, `authorize`, `refresh`, `logout`). It applies
  the destructuring defaults and converts the connection timeout for the
  platform.
- It carries out token revocation itself, following section 2.1 of RFC 7009.
  Revocation has guards, then endpoint resolution (the configured endpoint,
  or the OpenID discovery document at `issuer + "/.well-known/openid-configuration"`),
  then one POST with the form content type.
- It declares the TypeScript types callers use.

The model works on a small universe of JavaScript values (`Js.JsVal`). That
universe covers `typeof`, truthiness, defaults applying only to `undefined`,
property reads, `Object.keys` and `Object.values` (strings and arrays give
index keys), `filter`, and string coercion in template literals. This is
because the checks run on whatever property values a caller passes, and the TypeScript types
do not protect them. Each argument itself is taken to be an object (see "## Left out").

The modules:

- `Wrappers`: `Option` and `Result`.
- `Js`: the value universe, JavaScript semantics, and the errors a call raises: `invariant` errors, `TypeError`, a rejected fetch, and `Error("Failed to revoke token")`.
- `Config`: the destructured configuration and option objects.
- `Validators`: each check and the check list of each operation. `RunChecks` is the first-failure semantics of a run of `invariant` calls.
- `NativeArgs`: the timeout conversion and the native argument lists. Each list is stated against a layout, which gives the property, with its default, that each position carries.
- `FormUrlEncoded`: an `application/x-www-form-urlencoded` parser. It is how a server reads the revocation body, so it is the partner of the body builder.
- `Revocation`: `revoke`, with discovery and the POST outcome as inputs.
- `Types`: the declared types and their JavaScript values.
- `TypedCalls`: what the runtime checks still reject for inputs that respect the declared types.

Where the code departs from what the SDK's documentation or types suggest, the model follows the code:

- An empty string passes as `issuer`, `clientId` and `redirectUrl`. Only `typeof` is checked.
- With no `connectionTimeoutSeconds`, Android gets `15 * 1000` ms. The default is applied first (iOS 60 s, every other platform 15 s) and then multiplied.
- `customHeaders: {}` and `customHeaders: { token: undefined }` are rejected, although the type admits both. So is a `customHeaders` object with an undeclared property. TypeScript admits such an object when it is not a fresh object literal and also has at least one declared key.
- `logout` never checks `clientId`.
- A `null` group inside `customHeaders` passes the `typeof` test, and then `Object.values(null)` throws a `TypeError` rather than the custom-headers message.
- The revocation body is not percent-encoded. A `+` in the token reaches the server as a space (`Revocation.PlusInTokenArrivesAsSpace`).

The platform is a parameter (`Android`, `IOS`, `Other`). So are the network and base64:

- `discover` maps a URL to the discovery outcome.
- `postRejects` says whether the POST is rejected.
- `b64` is an uninterpreted function.

## Model

| member | source | states |
|---|---|---|
| Js.Require | src/index.tsx:37-42 | `invariant(cond, msg)` passes exactly when the condition holds, and otherwise raises an invariant error carrying that message |
| Js.FilterKeepsAll | src/index.tsx:84-88 | `correctKeys.length === keys.length` holds exactly when every key passes the filter |
| Js.FilterKeepsNone | src/index.tsx:95-96 | a filter for non-strings comes out empty exactly when every value is a string |
| Validators.RunChecks | src/index.tsx:196-201 | a run of `invariant` calls succeeds exactly when every check passes; otherwise it raises the error of the first failing check |
| Validators.FirstFailureAt | src/index.tsx:196-201 | when every check before position k passes and check k fails, the raised error is check k's |
| Validators.CheckServiceEndpoints | src/index.tsx:33-43 | passes exactly when the issuer is a string (possibly empty) or the service configuration is an object whose authorization and token endpoints are strings; fails with the endpoints message |
| Validators.CheckRevocationEndpoint | src/index.tsx:44-53 | passes exactly when the issuer is a string or the service configuration has a string revocation endpoint |
| Validators.CheckEndSessionEndpoint | src/index.tsx:54-63 | passes exactly when the issuer is a string or the service configuration has a string end-session endpoint |
| Validators.CheckClientId | src/index.tsx:64-68 | passes exactly for strings, empty included |
| Validators.CheckRedirectUrl | src/index.tsx:69-73 | passes exactly for strings, empty included |
| Validators.CheckHeaderGroups | src/index.tsx:92-99 | passes exactly when every group is an object or array of strings; a null group, reached before any other bad group, throws a `TypeError`, and no other failure does |
| Validators.IndexKeysNotAuthorized | src/index.tsx:82-84 | no index key of a string or array is `token`, `authorize` or `register` |
| Validators.CheckCustomHeaders | src/index.tsx:75-100 | passes exactly when the value is falsy or is an object with one to three keys, all authorized, each mapped to a string record (`{}` fails); a `TypeError` comes exactly from a null group reached before any other bad group, once the one to three keys are all authorized |
| Validators.CheckAdditionalHeaders | src/index.tsx:102-116 | passes exactly when the value is falsy or an object or array of strings (`{}` passes) |
| Validators.CheckTimeout | src/index.tsx:118-127 | passes exactly for numbers and the falsy values undefined, null, false and "" |
| Validators.DistinctCardinality | src/index.tsx:83-86 | distinct keys are as many as their positions |
| Validators.CustomHeaderKeyLimitImplied | src/index.tsx:85-88 | because object keys are distinct, all-authorized keys are at most three, so `keys.length <= 3` adds nothing |
| Validators.HeaderExamples | src/index.tsx:75-116 | absent headers pass, `{}` custom headers fail, an unknown key or a non-string header value fails, `{}` additional headers pass |
| Validators.NullHeaderGroupThrows | src/index.tsx:92-95 | `{ token: null }` raises a `TypeError`, not the custom-headers message |
| NativeArgs.ConvertTimeout | src/index.tsx:129-139 | Android gets whole milliseconds equal to the seconds given, and 0 for `null`, `false` and `""`; other platforms get a given value unchanged; an omitted value becomes a positive default |
| NativeArgs.DefaultBeforeConversion | src/index.tsx:133-139 | omitting the timeout equals passing the platform default; Android gets 15000, iOS 60 |
| NativeArgs.SameDurationOnBothPlatforms | src/index.tsx:129-139 | Android's milliseconds are 1000 times iOS's seconds for the same input |
| NativeArgs.TimeoutExamples | src/index.tsx:129-139 | omitted, 5 and 0 seconds on Android and iOS |
| NativeArgs.LayoutLengths | src/index.tsx:159-382 | the four argument arrays (lines 159-169, 203-231, 264-286 and 366-382): prefetch passes 9 arguments; authorize 16/14/9 on Android/iOS/other; refresh 13/11/9; logout 7/7/5 |
| NativeArgs.PrefetchConfiguration | src/index.tsx:141-173 | off Android nothing is checked or called; on Android it succeeds exactly when the five prefetch checks pass, raises the first failure otherwise, and every success hands the prefetch layout to the native call |
| NativeArgs.AuthorizeArguments | src/index.tsx:203-231 | the list authorize builds carries the authorize layout, position by position, with the destructuring defaults applied and the timeout converted |
| NativeArgs.Authorize | src/index.tsx:175-234 | succeeds exactly when the six authorize checks pass, raises the first failure otherwise, and passes the authorize layout for the platform |
| NativeArgs.RefreshArguments | src/index.tsx:264-286 | the list refresh builds carries the refresh layout, position by position, with `additionalParameters` defaulting to `{}` and the timeout converted |
| NativeArgs.Refresh | src/index.tsx:236-289 | succeeds exactly when the authorize checks and a truthy refresh token pass; the argument list follows the refresh layout, where `additionalParameters` defaults to `{}` |
| NativeArgs.LogoutArguments | src/index.tsx:366-382 | the list logout builds carries the logout layout, position by position, with its defaults applied |
| NativeArgs.Logout | src/index.tsx:347-385 | succeeds exactly when the end-session source, post-logout redirect URL and a truthy ID token pass; the argument list follows the logout layout |
| NativeArgs.ClientIdChecked | src/index.tsx:154-197 | a non-string client id makes authorize, refresh and prefetch on Android fail, with the client id message once the endpoints pass |
| NativeArgs.LogoutIgnoresClientId | src/index.tsx:347-364 | logout's outcome does not depend on the client id |
| FormUrlEncoded.DecodeSafe | src/index.tsx:341 | a component without '+' and '%' decodes to itself |
| FormUrlEncoded.OnePairForm | src/index.tsx:341 | `name=value` parses back to the one pair |
| FormUrlEncoded.TwoPairForm | src/index.tsx:341 | `n1=v1&n2=v2` parses back to the two pairs |
| FormUrlEncoded.OnePairFormDecoded | src/index.tsx:341 | `name=value` with no '&' in the value parses to the name and the decoded value |
| Revocation.ResolveEndpointSource | src/index.tsx:304-324 | succeeds exactly when the token, client id and endpoint guards pass; otherwise the first failing guard's invariant error; a truthy configured endpoint is used, otherwise the issuer's well-known URL |
| Revocation.DiscoveredEndpoint | src/index.tsx:315-323 | succeeds exactly when the document is not null and has a truthy `revocation_endpoint`; an unreachable document is the fetch's own rejection; a `null` or `undefined` document throws a `TypeError`; any other document without a truthy `revocation_endpoint` raises the missing-endpoint message; never the revoke-failed error |
| Revocation.ResolveEndpoint | src/index.tsx:311-324 | endpoint resolution never raises the revoke-failed error |
| Revocation.RevocationRequest | src/index.tsx:326-341 | a POST to the endpoint with the form content type, and an Authorization header `Basic b64(clientId:clientSecret)` exactly when `includeBasicAuth` is truthy |
| Revocation.Revoke | src/index.tsx:291-345 | guard failures are the first failing guard and resolution failures pass through; once the endpoint is resolved, the request sent is the revocation request to that endpoint, and the call succeeds with it exactly when the POST is not rejected, otherwise fails with "Failed to revoke token" |
| Revocation.ExplicitEndpointSkipsDiscovery | src/index.tsx:312-313 | with a truthy configured endpoint, discovery does not influence the outcome |
| Revocation.DiscoveryOnlyAtWellKnownUrl | src/index.tsx:314-324 | otherwise, only the discovery result at `issuer/.well-known/openid-configuration` matters |
| Revocation.MissingRevocationEndpointNoPost | src/index.tsx:318-321 | a document without `revocation_endpoint` fails with its message, whatever the POST would do |
| Revocation.OnlyPostFailureIsWrapped | src/index.tsx:338-344 | "Failed to revoke token" is raised exactly when resolution succeeded and the POST was rejected; resolution errors pass through |
| Revocation.EmptyConfiguredEndpointDiscoversAtUndefined | src/index.tsx:306-315 | an empty configured endpoint passes the guard even without an issuer, and discovery then runs at the issuer's string, `undefined/.well-known/openid-configuration` when the issuer is missing |
| Revocation.RevocationBody | src/index.tsx:341 | for a token without '&', '+' or '%', and a client id without them whenever `sendClientId` is truthy, a form parser reads back the token, and the client id exactly when `sendClientId` is truthy |
| Revocation.PlusInTokenArrivesAsSpace | src/index.tsx:341 | the token `a+b` is read by the server as `a b` |
| Revocation.RevokeRequiresClientId | src/index.tsx:304-305 | a non-string client id fails revoke, with the client id message when a token is given |
| TypedCalls.StringMapIsStringRecord | src/types.ts:25 | a typed `Record<string, string>` is a string record |
| TypedCalls.ServiceEndpointsFromTypes | src/types.ts:9-17 | each member of the `BaseConfiguration` union passes the service-endpoints check |
| TypedCalls.ServiceConfigurationFields | src/types.ts:1-7 | a typed service configuration yields its endpoints under their names |
| TypedCalls.CustomHeadersFromTypes | src/types.ts:19-23 | typed custom headers pass exactly when at least one group key is present, no present group is `undefined` and no undeclared property rides along; otherwise they fail with the custom-headers message (so `{}`, `{ token: undefined }` and a non-literal object with an extra key fail) |
| TypedCalls.AdditionalHeadersAndTimeoutFromTypes | src/types.ts:56-58 | typed additional headers and timeouts always pass |
| TypedCalls.AuthorizeChecksFromTypes | src/types.ts:49-74 | for a typed configuration every authorize and prefetch check passes exactly when custom headers are absent, or name a group, set none to `undefined` and carry no undeclared property |
| TypedCalls.AuthorizeFromTypes | src/types.ts:49-74 | a typed authorize fails only on custom headers that are `{}`, set a group to `undefined` or carry an undeclared property, and then with the custom-headers message |
| TypedCalls.RefreshFromTypes | src/types.ts:119-121 | a typed refresh succeeds exactly when the custom headers are accepted as for authorize and the refresh token is not empty |
| TypedCalls.LogoutFromTypes | src/types.ts:76-89 | a typed logout succeeds exactly when there is an issuer or an end-session endpoint and the ID token is not empty |
| TypedCalls.RevokeFromTypes | src/types.ts:113-117 | typed revoke guards pass exactly when the token is not empty and there is an issuer or a revocation endpoint; a non-empty configured endpoint skips discovery |
| TypedCalls.BasicAuthWithoutSecret | src/types.ts:44-47 | without a client secret the Basic credentials are `clientId:undefined` |

## Left out

- The native module binding and the linking-error proxy (src/index.tsx:16-31). The native calls are modelled by the argument lists handed to them.
- The native engine's results (`AuthorizeResult`, `RefreshResult`, `EndSessionResult`, `RegistrationResponse`) and the error-code unions. This layer passes them through untouched; `RefreshResult` is declared but nothing is proved about it.
- `fetch`, `response.json()` and the event loop. Discovery and the POST outcome are inputs. A thrown `invariant` inside the async `revoke` and `prefetchConfiguration` is a rejected promise, which the model does not distinguish from a synchronous throw.
- `react-native-base64`. The encoder is an uninterpreted function parameter, so no property of the encoding is stated.
- Numbers are integers. NaN, fractions and `Infinity` are not modelled, and neither are functions, symbols or class instances as configuration values.
- Key order of JavaScript objects. Objects are listed in enumeration order as given, and integer-like keys are not moved to the front.
- Revocation.DiscoveredEndpoint: a non-string truthy `revocation_endpoint` is coerced with the model's `String()`; what `fetch` does with such a URL is not modelled.
- Revocation.ResolveEndpointSource: a non-string truthy configured `revocationEndpoint` is coerced the same way, with the same gap.
- Arguments that are not objects. Each operation destructures its configuration (and its options) first (src/index.tsx:141-151, 175-195, 236-253, 291-302, 347-357), so a `null` or `undefined` argument, such as a missing options object for `refresh`, `logout` or `revoke`, throws a `TypeError` before any check runs; for the async `revoke` this is a rejected promise. The model takes every argument to be an object of properties and has no such path.
- The example app (example/), which only calls these functions.

=== FILE: config.dfy ===
/**
 * What the four flow operations destructure from their arguments. TypeScript
 * types are erased at run time, so each property is an arbitrary JavaScript
 * value and an absent property reads as undefined.
 */
module Config {
  import opened Js

  /** The first argument: the properties of `AuthConfiguration` (which
      include those of `BaseAuthConfiguration` and `EndSessionConfiguration`). */
  datatype JsConfig = JsConfig(
    issuer: JsVal,
    serviceConfiguration: JsVal,
    clientId: JsVal,
    clientSecret: JsVal,
    scopes: JsVal,
    redirectUrl: JsVal,
    additionalParameters: JsVal,
    clientAuthMethod: JsVal,
    dangerouslyAllowInsecureHttpRequests: JsVal,
    customHeaders: JsVal,
    additionalHeaders: JsVal,
    connectionTimeoutSeconds: JsVal,
    useNonce: JsVal,
    usePKCE: JsVal,
    warmAndPrefetchChrome: JsVal,
    skipCodeExchange: JsVal,
    iosCustomBrowser: JsVal,
    androidAllowCustomBrowsers: JsVal,
    androidTrustedWebActivity: JsVal,
    iosPrefersEphemeralSession: JsVal)

  /** The second argument of `refresh`, `revoke` and `logout`: the properties
      of `RefreshConfiguration`, `RevokeConfiguration` and
      `LogoutConfiguration`; each operation reads only its own. */
  datatype JsOptions = JsOptions(
    refreshToken: JsVal,
    idToken: JsVal,
    postLogoutRedirectUrl: JsVal,
    tokenToRevoke: JsVal,
    sendClientId: JsVal,
    includeBasicAuth: JsVal)

  /** A configuration object with no properties at all. */
  const EmptyConfig: JsConfig :=
    JsConfig(JUndef, JUndef, JUndef, JUndef, JUndef, JUndef, JUndef, JUndef, JUndef, JUndef,
             JUndef, JUndef, JUndef, JUndef, JUndef, JUndef, JUndef, JUndef, JUndef, JUndef)

  /** An options object with no properties at all. */
  const NoOptions: JsOptions := JsOptions(JUndef, JUndef, JUndef, JUndef, JUndef, JUndef)
}

=== FILE: form.dfy ===
/**
 * Reading an `application/x-www-form-urlencoded` body the way a server
 * does (split on '&', then on the first '=', then decode '+' and "%XX"),
 * used to state what a revocation endpoint receives.
 */
module FormUrlEncoded {

  /** The position of the first `c` in `s`. */
  function IndexOf(s: string, c: char): (i: nat)
    requires c in s
    ensures i < |s| && s[i] == c && c !in s[..i]
  {
    if s[0] == c then 0
    else
      var j := IndexOf(s[1..], c);
      assert s[1..][..j] == s[1..j + 1];
      assert s[..j + 1] == [s[0]] + s[1..j + 1];
      j + 1
  }

  /** `s.split(sep)`. */
  function Split(s: string, sep: char): (parts: seq<string>)
    ensures |parts| > 0
    decreases |s|
  {
    if sep !in s then [s]
    else
      var i := IndexOf(s, sep);
      [s[..i]] + Split(s[i + 1..], sep)
  }

  function HexValue(c: char): int {
    if '0' <= c <= '9' then c as int - '0' as int
    else if 'a' <= c <= 'f' then c as int - 'a' as int + 10
    else if 'A' <= c <= 'F' then c as int - 'A' as int + 10
    else -1
  }

  /** Percent-decoding of one name or value: '+' is a space and "%XX" the
      character with that code; any other '%' stays as it is. */
  function DecodeComponent(s: string): string
    decreases |s|
  {
    if |s| == 0 then ""
    else if s[0] == '+' then " " + DecodeComponent(s[1..])
    else if s[0] == '%' && |s| >= 3 && HexValue(s[1]) >= 0 && HexValue(s[2]) >= 0 then
      [(16 * HexValue(s[1]) + HexValue(s[2])) as char] + DecodeComponent(s[3..])
    else [s[0]] + DecodeComponent(s[1..])
  }

  /** One `name=value` sequence; without '=' the value is empty. */
  function ParsePair(segment: string): (string, string) {
    if '=' in segment then
      var i := IndexOf(segment, '=');
      (DecodeComponent(segment[..i]), DecodeComponent(segment[i + 1..]))
    else (DecodeComponent(segment), "")
  }

  /** The name/value list of a form body; empty sequences are skipped. */
  function ParseForm(body: string): seq<(string, string)> {
    ParseSegments(Split(body, '&'))
  }

  function ParseSegments(segments: seq<string>): seq<(string, string)> {
    if |segments| == 0 then []
    else if segments[0] == "" then ParseSegments(segments[1..])
    else [ParsePair(segments[0])] + ParseSegments(segments[1..])
  }

  /** Characters a value can hold and still reach the server unchanged
      without being percent-encoded. */
  predicate FormSafe(s: string) {
    forall i :: 0 <= i < |s| ==> s[i] != '&' && s[i] != '+' && s[i] != '%'
  }

  /** Decoding leaves a string without '+' and '%' as it is. */
  lemma {:induction false} DecodeSafe(s: string)
    requires FormSafe(s)
    ensures DecodeComponent(s) == s
  {
    if |s| > 0 {
      assert FormSafe(s[1..]) by {
        assert forall i :: 0 <= i < |s| - 1 ==> s[1..][i] == s[i + 1];
      }
      DecodeSafe(s[1..]);
    }
  }

  /** Splitting a string without the separator gives the string itself. */
  lemma SplitNoSeparator(s: string, sep: char)
    requires sep !in s
    ensures Split(s, sep) == [s]
  {
  }

  /** Splitting `a + [sep] + b` cuts at the separator after `a`. */
  lemma SplitAfter(a: string, sep: char, b: string)
    requires sep !in a
    ensures Split(a + [sep] + b, sep) == [a] + Split(b, sep)
  {
    var s := a + [sep] + b;
    assert s[|a|] == sep;
    var i := IndexOf(s, sep);
    assert s[..|a|] == a;
    assert i == |a|;
    assert s[i + 1..] == b;
  }

  /** A segment is cut at its first '=', so a name without '=' is read
      back whole, whatever the value holds. */
  lemma ParsePairAtFirstEquals(name: string, value: string)
    requires '=' !in name
    ensures ParsePair(name + "=" + value) == (DecodeComponent(name), DecodeComponent(value))
  {
    var seg := name + "=" + value;
    assert seg[|name|] == '=';
    var i := IndexOf(seg, '=');
    assert seg[..|name|] == name;
    assert i == |name|;
    assert seg[..i] == name;
    assert seg[i + 1..] == value;
  }

  /** A `name=value` segment whose name has no '=' and whose name and value
      are safe reads back as that pair. */
  lemma ParsePairOf(name: string, value: string)
    requires '=' !in name && FormSafe(name) && FormSafe(value)
    ensures ParsePair(name + "=" + value) == (name, value)
  {
    ParsePairAtFirstEquals(name, value);
    DecodeSafe(name);
    DecodeSafe(value);
  }

  /** Safe strings stay safe when joined. */
  lemma SafeConcat(a: string, b: string)
    requires FormSafe(a) && FormSafe(b)
    ensures FormSafe(a + b)
  {
    assert forall i :: |a| <= i < |a + b| ==> (a + b)[i] == b[i - |a|];
  }

  /** A form-safe name (without '=') and value make a safe segment. */
  lemma SafeSegment(name: string, value: string)
    requires '=' !in name && FormSafe(name) && FormSafe(value)
    ensures FormSafe(name + "=" + value)
  {
    SafeConcat(name, "=");
    SafeConcat(name + "=", value);
  }

  /** A body of one safe `name=value` segment reads back as that pair. */
  lemma OnePairForm(name: string, value: string)
    requires '=' !in name && FormSafe(name) && FormSafe(value)
    ensures ParseForm(name + "=" + value) == [(name, value)]
  {
    var segment := name + "=" + value;
    SafeSegment(name, value);
    assert '&' !in segment;
    SplitNoSeparator(segment, '&');
    assert segment != "";
    ParsePairOf(name, value);
    assert [segment][1..] == [];
    assert ParseSegments([segment]) == [ParsePair(segment)] + ParseSegments([]);
  }

  /** A body of two safe segments joined by '&' reads back as the two
      pairs, in order. */
  lemma TwoPairForm(name1: string, value1: string, name2: string, value2: string)
    requires '=' !in name1 && FormSafe(name1) && FormSafe(value1)
    requires '=' !in name2 && FormSafe(name2) && FormSafe(value2)
    ensures ParseForm(name1 + "=" + value1 + "&" + (name2 + "=" + value2))
      == [(name1, value1), (name2, value2)]
  {
    var first := name1 + "=" + value1;
    var second := name2 + "=" + value2;
    SafeSegment(name1, value1);
    SafeSegment(name2, value2);
    assert '&' !in first && '&' !in second;
    SplitAfter(first, '&', second);
    SplitNoSeparator(second, '&');
    assert Split(first + "&" + second, '&') == [first, second];
    assert first != "" && second != "";
    ParsePairOf(name1, value1);
    ParsePairOf(name2, value2);
    assert [first, second][1..] == [second];
    assert [second][1..] == [];
    assert ParseSegments([second]) == [ParsePair(second)] + ParseSegments([]);
    assert ParseSegments([first, second]) == [ParsePair(first)] + ParseSegments([second]);
  }

  /** A body of one segment is read as its name and its decoded value,
      whatever the value holds besides '&'. */
  lemma OnePairFormDecoded(name: string, value: string)
    requires '=' !in name && FormSafe(name) && '&' !in value
    ensures ParseForm(name + "=" + value) == [(name, DecodeComponent(value))]
  {
    var segment := name + "=" + value;
    assert forall i :: |name| + 1 <= i < |segment| ==> segment[i] == value[i - |name| - 1];
    assert '&' !in segment;
    SplitNoSeparator(segment, '&');
    ParsePairAtFirstEquals(name, value);
    DecodeSafe(name);
    assert [segment][1..] == [];
    assert ParseSegments([segment]) == [ParsePair(segment)] + ParseSegments([]);
  }
}

=== FILE: js.dfy ===
/**
 * The small universe of JavaScript values the configuration layer inspects,
 * with the parts of JavaScript semantics it relies on: `typeof`, truthiness,
 * property reads, `Object.keys`, `Object.values`, `Array.prototype.filter`,
 * string coercion in template literals, and the errors a call can raise.
 */
module Js {
  import opened Wrappers

  /** A JavaScript value. Numbers are modelled as integers; the fields of an
      object are listed in enumeration order. */
  datatype JsVal =
    | JUndef
    | JNull
    | JBool(b: bool)
    | JNum(n: int)
    | JStr(s: string)
    | JArr(elems: seq<JsVal>)
    | JObj(fields: seq<(string, JsVal)>)

  /** The answers of `typeof` that these values can give. */
  datatype JsType = TUndefined | TObject | TBoolean | TNumber | TString

  function TypeOf(v: JsVal): JsType {
    match v
    case JUndef => TUndefined
    case JNull => TObject   // `typeof null === 'object'`
    case JBool(_) => TBoolean
    case JNum(_) => TNumber
    case JStr(_) => TString
    case JArr(_) => TObject
    case JObj(_) => TObject
  }

  /** `typeof v === 'string'`: the empty string qualifies. */
  predicate IsString(v: JsVal) {
    TypeOf(v) == TString
  }

  /** JavaScript truthiness (`if (v)`, `!v`, `a && b`). */
  predicate Truthy(v: JsVal) {
    match v
    case JUndef => false
    case JNull => false
    case JBool(b) => b
    case JNum(n) => n != 0
    case JStr(s) => s != ""
    case JArr(_) => true
    case JObj(_) => true
  }

  /** A destructuring default `{ x = d }`: it replaces `undefined` only,
      never `null` or another falsy value. */
  function OrDefault(v: JsVal, d: JsVal): JsVal {
    if v.JUndef? then d else v
  }

  /** The value of the first field named `key`, or undefined. */
  function Lookup(fields: seq<(string, JsVal)>, key: string): JsVal {
    if |fields| == 0 then JUndef
    else if fields[0].0 == key then fields[0].1
    else Lookup(fields[1..], key)
  }

  /** The property read `v.key` on a value that is not null or undefined:
      only objects carry the named properties this layer reads. */
  function Get(v: JsVal, key: string): JsVal {
    match v
    case JObj(fields) => Lookup(fields, key)
    case _ => JUndef
  }

  /** No field name occurs twice, as in every JavaScript object. */
  predicate DistinctKeys(fields: seq<(string, JsVal)>) {
    forall i, j :: 0 <= i < j < |fields| ==> fields[i].0 != fields[j].0
  }

  function Digit(d: nat): char
    requires d < 10
  {
    ('0' as int + d) as char
  }

  predicate IsDigit(c: char) {
    '0' <= c <= '9'
  }

  /** The decimal spelling of a natural number, as `String(n)` gives it. */
  function NatToDecimal(n: nat): (r: string)
    ensures |r| > 0
    ensures forall i :: 0 <= i < |r| ==> IsDigit(r[i])
    ensures n >= 10 ==> r[0] != '0'
  {
    if n < 10 then [Digit(n)] else NatToDecimal(n / 10) + [Digit(n % 10)]
  }

  function IntToDecimal(n: int): string {
    if n < 0 then "-" + NatToDecimal(-n) else NatToDecimal(n)
  }

  /** The own enumerable keys of a string or an array: its indices. */
  function IndexKeys(n: nat): (r: seq<string>)
    ensures |r| == n
    ensures forall i :: 0 <= i < n ==> r[i] == NatToDecimal(i)
  {
    seq(n, i requires 0 <= i < n => NatToDecimal(i))
  }

  /** `Object.keys(v)`; numbers and booleans have no own keys. */
  function ObjectKeys(v: JsVal): seq<string> {
    match v
    case JObj(fields) => seq(|fields|, i requires 0 <= i < |fields| => fields[i].0)
    case JArr(elems) => IndexKeys(|elems|)
    case JStr(s) => IndexKeys(|s|)
    case _ => []
  }

  /** `Object.values(v)` for a value that is not null or undefined. */
  function ObjectValues(v: JsVal): seq<JsVal> {
    match v
    case JObj(fields) => seq(|fields|, i requires 0 <= i < |fields| => fields[i].1)
    case JArr(elems) => elems
    case JStr(s) => seq(|s|, i requires 0 <= i < |s| => JStr([s[i]]))
    case _ => []
  }

  /** `xs.filter(keep)`. */
  function Filter<T>(xs: seq<T>, keep: T -> bool): (r: seq<T>)
    ensures |r| <= |xs|
  {
    if |xs| == 0 then []
    else (if keep(xs[0]) then [xs[0]] else []) + Filter(xs[1..], keep)
  }

  /** The filter keeps everything exactly when every element passes. */
  lemma {:induction false} FilterKeepsAll<T>(xs: seq<T>, keep: T -> bool)
    ensures |Filter(xs, keep)| == |xs| <==> forall i :: 0 <= i < |xs| ==> keep(xs[i])
  {
    if |xs| > 0 {
      FilterKeepsAll(xs[1..], keep);
      if !keep(xs[0]) {
        assert |Filter(xs, keep)| == |Filter(xs[1..], keep)| <= |xs| - 1;
      } else {
        assert forall i :: 1 <= i < |xs| ==> xs[i] == xs[1..][i - 1];
      }
    }
  }

  /** The filter keeps nothing exactly when no element passes. */
  lemma {:induction false} FilterKeepsNone<T>(xs: seq<T>, keep: T -> bool)
    ensures |Filter(xs, keep)| == 0 <==> forall i :: 0 <= i < |xs| ==> !keep(xs[i])
  {
    if |xs| > 0 {
      FilterKeepsNone(xs[1..], keep);
      assert forall i :: 1 <= i < |xs| ==> xs[i] == xs[1..][i - 1];
    }
  }

  /** `parts.join(sep)`. */
  function Join(parts: seq<string>, sep: string): string {
    if |parts| == 0 then ""
    else if |parts| == 1 then parts[0]
    else parts[0] + sep + Join(parts[1..], sep)
  }

  /** `String(v)`, which is what `${v}` in a template literal produces. An
      array joins its elements with commas, null and undefined elements
      becoming empty. */
  function ToString(v: JsVal): string {
    match v
    case JUndef => "undefined"
    case JNull => "null"
    case JBool(b) => if b then "true" else "false"
    case JNum(n) => IntToDecimal(n)
    case JStr(s) => s
    case JArr(elems) =>
      Join(seq(|elems|, i requires 0 <= i < |elems| =>
                 if elems[i].JUndef? || elems[i].JNull? then "" else ToString(elems[i])), ",")
    case JObj(_) => "[object Object]"
  }

  /** What a call of this layer can raise. */
  datatype JsError =
    | Invariant(message: string)   // raised by `invariant(cond, message)`
    | TypeError                    // a built-in applied to null or undefined
    | NetworkRejected              // a rejected `fetch` or body parse, passed on as is
    | PlainError(message: string)  // `new Error(message)`

  type Outcome<T> = Result<T, JsError>

  /** `invariant(condition, message)`. */
  function Require(condition: bool, message: string): (r: Outcome<()>)
    ensures r.Success? <==> condition
    ensures r.Failure? ==> r.error == Invariant(message)
  {
    if condition then Success(()) else Failure(Invariant(message))
  }
}

=== FILE: native_args.dfy ===
/**
 * The argument lists handed to the native authentication engine
 * (src/index.tsx:129-289 and 347-385). The engine decodes its arguments by
 * position, so each operation's result is stated against a layout: the list
 * of properties, in order, that each position carries, with the
 * destructuring default of the source applied.
 */
module NativeArgs {
  import opened Wrappers
  import opened Js
  import opened Config
  import opened Validators

  /** The value of `Platform.OS` this layer distinguishes. */
  datatype Platform = Android | IOS | Other

  const SECOND_IN_MS := 1000
  const DEFAULT_TIMEOUT_IOS := 60
  const DEFAULT_TIMEOUT_ANDROID := 15

  /** The default connection timeout, in seconds. */
  function DefaultTimeoutSeconds(p: Platform): int {
    if p == IOS then DEFAULT_TIMEOUT_IOS else DEFAULT_TIMEOUT_ANDROID
  }

  /** The number a validated timeout stands for in `timeout * 1000`: the
      falsy non-numbers null, false and "" become 0. */
  function TimeoutNumber(timeout: JsVal): int
    requires CheckTimeout(timeout).Success?
  {
    if timeout.JNum? then timeout.n else 0
  }

  /** `convertTimeoutForPlatform`: the default replaces an omitted value
      first, then only Android scales seconds to milliseconds (where
      `null`, `false` and `""` multiply to 0); other platforms receive the
      value unchanged. */
  function ConvertTimeout(p: Platform, timeout: JsVal): (r: JsVal)
    requires CheckTimeout(timeout).Success?
    ensures p == Android ==> r.JNum? && r.n % SECOND_IN_MS == 0
    ensures p == Android && timeout.JNum? ==> r.n / SECOND_IN_MS == timeout.n
    ensures p != Android && !timeout.JUndef? ==> r == timeout
    ensures timeout.JUndef? ==> r.JNum? && r.n > 0
    ensures p == Android && !timeout.JUndef? && !timeout.JNum? ==> r == JNum(0)
  {
    var seconds := OrDefault(timeout, JNum(DefaultTimeoutSeconds(p)));
    if p == Android then JNum(TimeoutNumber(seconds) * SECOND_IN_MS) else seconds
  }

  /** The default is applied before the unit conversion: omitting the
      timeout is the same as passing the platform's default seconds. */
  lemma DefaultBeforeConversion(p: Platform)
    ensures ConvertTimeout(p, JUndef) == ConvertTimeout(p, JNum(DefaultTimeoutSeconds(p)))
    ensures ConvertTimeout(p, JUndef) == JNum(if p == Android then 15000 else if p == IOS then 60 else 15)
  {
  }

  /** Android and iOS ask for the same duration, in milliseconds and in
      seconds respectively. */
  lemma SameDurationOnBothPlatforms(seconds: int)
    ensures ConvertTimeout(Android, JNum(seconds)).n == SECOND_IN_MS * ConvertTimeout(IOS, JNum(seconds)).n
  {
  }

  /** The documented values: omitted, 5 and 0 seconds. */
  lemma TimeoutExamples()
    ensures ConvertTimeout(Android, JUndef) == JNum(15000)
    ensures ConvertTimeout(IOS, JUndef) == JNum(60)
    ensures ConvertTimeout(Android, JNum(5)) == JNum(5000)
    ensures ConvertTimeout(IOS, JNum(5)) == JNum(5)
    ensures ConvertTimeout(Android, JNum(0)) == JNum(0)
    ensures ConvertTimeout(IOS, JNum(0)) == JNum(0)
  {
  }

  // ---------------------------------------------------------------------
  // Layouts

  datatype Operation = PrefetchOp | AuthorizeOp | RefreshOp | LogoutOp

  /** The properties that occur in native argument lists. */
  datatype Field =
    | Issuer | RedirectUrl | ClientId | ClientSecret | Scopes | AdditionalParameters
    | ServiceConfiguration | ClientAuthMethod | DangerouslyAllowInsecureHttpRequests
    | CustomHeaders | AdditionalHeaders | ConnectionTimeoutSeconds | UseNonce | UsePKCE
    | WarmAndPrefetchChrome | SkipCodeExchange | IosCustomBrowser
    | AndroidAllowCustomBrowsers | AndroidTrustedWebActivity | IosPrefersEphemeralSession
    | RefreshToken | IdToken | PostLogoutRedirectUrl

  /** The property a field names, read from the call's arguments. */
  function Property(c: JsConfig, o: JsOptions, f: Field): JsVal {
    match f
    case Issuer => c.issuer
    case RedirectUrl => c.redirectUrl
    case ClientId => c.clientId
    case ClientSecret => c.clientSecret
    case Scopes => c.scopes
    case AdditionalParameters => c.additionalParameters
    case ServiceConfiguration => c.serviceConfiguration
    case ClientAuthMethod => c.clientAuthMethod
    case DangerouslyAllowInsecureHttpRequests => c.dangerouslyAllowInsecureHttpRequests
    case CustomHeaders => c.customHeaders
    case AdditionalHeaders => c.additionalHeaders
    case ConnectionTimeoutSeconds => c.connectionTimeoutSeconds
    case UseNonce => c.useNonce
    case UsePKCE => c.usePKCE
    case WarmAndPrefetchChrome => c.warmAndPrefetchChrome
    case SkipCodeExchange => c.skipCodeExchange
    case IosCustomBrowser => c.iosCustomBrowser
    case AndroidAllowCustomBrowsers => c.androidAllowCustomBrowsers
    case AndroidTrustedWebActivity => c.androidTrustedWebActivity
    case IosPrefersEphemeralSession => c.iosPrefersEphemeralSession
    case RefreshToken => o.refreshToken
    case IdToken => o.idToken
    case PostLogoutRedirectUrl => o.postLogoutRedirectUrl
  }

  /** The destructuring defaults (JUndef: none). Nonce and PKCE default to
      on, the client authentication method to "none", the other flags to
      off and the browser allow-list to empty; only refresh defaults the
      additional parameters, to `{}`. */
  function DefaultOf(op: Operation, f: Field): JsVal {
    match f
    case UseNonce => JBool(true)
    case UsePKCE => JBool(true)
    case ClientAuthMethod => JStr("none")
    case DangerouslyAllowInsecureHttpRequests => JBool(false)
    case WarmAndPrefetchChrome => JBool(false)
    case SkipCodeExchange => JBool(false)
    case AndroidTrustedWebActivity => JBool(false)
    case IosPrefersEphemeralSession => JBool(false)
    case AndroidAllowCustomBrowsers => JArr([])
    case AdditionalParameters => if op == RefreshOp then JObj([]) else JUndef
    case _ => JUndef
  }

  /** The order in which the native side reads the properties. */
  function Layout(op: Operation, p: Platform): seq<Field> {
    match op
    case PrefetchOp =>
      [WarmAndPrefetchChrome, Issuer, RedirectUrl, ClientId, Scopes, ServiceConfiguration,
       DangerouslyAllowInsecureHttpRequests, CustomHeaders, ConnectionTimeoutSeconds]
    case AuthorizeOp =>
      [Issuer, RedirectUrl, ClientId, ClientSecret, Scopes, AdditionalParameters,
       ServiceConfiguration, SkipCodeExchange, ConnectionTimeoutSeconds]
      + (match p
         case Android =>
           [UseNonce, UsePKCE, ClientAuthMethod, DangerouslyAllowInsecureHttpRequests,
            CustomHeaders, AndroidAllowCustomBrowsers, AndroidTrustedWebActivity]
         case IOS =>
           [AdditionalHeaders, UseNonce, UsePKCE, IosCustomBrowser, IosPrefersEphemeralSession]
         case Other => [])
    case RefreshOp =>
      [Issuer, RedirectUrl, ClientId, ClientSecret, RefreshToken, Scopes,
       AdditionalParameters, ServiceConfiguration, ConnectionTimeoutSeconds]
      + (match p
         case Android =>
           [ClientAuthMethod, DangerouslyAllowInsecureHttpRequests, CustomHeaders,
            AndroidAllowCustomBrowsers]
         case IOS => [AdditionalHeaders, IosCustomBrowser]
         case Other => [])
    case LogoutOp =>
      [Issuer, IdToken, PostLogoutRedirectUrl, ServiceConfiguration, AdditionalParameters]
      + (match p
         case Android => [DangerouslyAllowInsecureHttpRequests, AndroidAllowCustomBrowsers]
         case IOS => [IosCustomBrowser, IosPrefersEphemeralSession]
         case Other => [])
  }

  /** The number of positional arguments of each call. */
  lemma LayoutLengths()
    ensures |Layout(PrefetchOp, Android)| == 9
    ensures |Layout(AuthorizeOp, Android)| == 16 && |Layout(AuthorizeOp, IOS)| == 14
    ensures |Layout(AuthorizeOp, Other)| == 9
    ensures |Layout(RefreshOp, Android)| == 13 && |Layout(RefreshOp, IOS)| == 11
    ensures |Layout(RefreshOp, Other)| == 9
    ensures |Layout(LogoutOp, Android)| == 7 && |Layout(LogoutOp, IOS)| == 7
    ensures |Layout(LogoutOp, Other)| == 5
  {
  }

  /** `args` carries, position by position, the layout's properties with
      their defaults applied and the timeout converted for the platform. */
  predicate FollowsLayout(args: seq<JsVal>, op: Operation, c: JsConfig, o: JsOptions, p: Platform) {
    var layout := Layout(op, p);
    && |args| == |layout|
    && forall i :: 0 <= i < |args| ==>
         if layout[i] == ConnectionTimeoutSeconds then
           CheckTimeout(c.connectionTimeoutSeconds).Success?
           && args[i] == ConvertTimeout(p, c.connectionTimeoutSeconds)
         else
           args[i] == OrDefault(Property(c, o, layout[i]), DefaultOf(op, layout[i]))
  }

  // ---------------------------------------------------------------------
  // The four native calls

  /** `prefetchConfiguration`: nothing happens (no check, no call) unless
      the platform is Android; there the prefetch checks run and the
      prefetch layout is passed on. */
  function PrefetchConfiguration(c: JsConfig, p: Platform): (r: Outcome<Option<seq<JsVal>>>)
    ensures p != Android ==> r == Success(None)
    ensures p == Android ==> (r.Success? <==> AllPass(PrefetchChecks(c)))
    ensures p == Android && r.Success? ==> r.value.Some?
    ensures r.Failure? ==> IsFirstFailure(PrefetchChecks(c), r.error)
    ensures r.Success? && r.value.Some? ==> FollowsLayout(r.value.value, PrefetchOp, c, NoOptions, p)
  {
    if p != Android then Success(None)
    else
      var _ :- RunChecks(PrefetchChecks(c));
      assert CheckTimeout(c.connectionTimeoutSeconds) == PrefetchChecks(c)[4];
      Success(Some([
        OrDefault(c.warmAndPrefetchChrome, JBool(false)),
        c.issuer,
        c.redirectUrl,
        c.clientId,
        c.scopes,
        c.serviceConfiguration,
        OrDefault(c.dangerouslyAllowInsecureHttpRequests, JBool(false)),
        c.customHeaders,
        ConvertTimeout(p, c.connectionTimeoutSeconds)]))
  }

  /** The argument list `authorize` builds once its checks have passed. */
  function AuthorizeArguments(c: JsConfig, p: Platform): (args: seq<JsVal>)
    requires CheckTimeout(c.connectionTimeoutSeconds).Success?
    ensures FollowsLayout(args, AuthorizeOp, c, NoOptions, p)
  {
    var common := [
      c.issuer,
      c.redirectUrl,
      c.clientId,
      c.clientSecret,
      c.scopes,
      c.additionalParameters,
      c.serviceConfiguration,
      OrDefault(c.skipCodeExchange, JBool(false)),
      ConvertTimeout(p, c.connectionTimeoutSeconds)];
    var suffix := match p
      case Android => [
        OrDefault(c.useNonce, JBool(true)),
        OrDefault(c.usePKCE, JBool(true)),
        OrDefault(c.clientAuthMethod, JStr("none")),
        OrDefault(c.dangerouslyAllowInsecureHttpRequests, JBool(false)),
        c.customHeaders,
        OrDefault(c.androidAllowCustomBrowsers, JArr([])),
        OrDefault(c.androidTrustedWebActivity, JBool(false))]
      case IOS => [
        c.additionalHeaders,
        OrDefault(c.useNonce, JBool(true)),
        OrDefault(c.usePKCE, JBool(true)),
        c.iosCustomBrowser,
        OrDefault(c.iosPrefersEphemeralSession, JBool(false))]
      case Other => [];
    var args := common + suffix;
    var layout := Layout(AuthorizeOp, p);
    assert FollowsLayout(args, AuthorizeOp, c, NoOptions, p) by {
      forall i | 0 <= i < |args|
        ensures if layout[i] == ConnectionTimeoutSeconds then
                  args[i] == ConvertTimeout(p, c.connectionTimeoutSeconds)
                else
                  args[i] == OrDefault(Property(c, NoOptions, layout[i]), DefaultOf(AuthorizeOp, layout[i]))
      {
        if i < 9 {
        } else {
          if p == Android {
          } else if p == IOS {
          }
        }
      }
    }
    args
  }

  /** `authorize`: six checks, then a nine-argument prefix common to all
      platforms and a platform suffix. */
  function Authorize(c: JsConfig, p: Platform): (r: Outcome<seq<JsVal>>)
    ensures r.Success? <==> AllPass(AuthorizeChecks(c))
    ensures r.Failure? ==> IsFirstFailure(AuthorizeChecks(c), r.error)
    ensures r.Success? ==> FollowsLayout(r.value, AuthorizeOp, c, NoOptions, p)
  {
    var _ :- RunChecks(AuthorizeChecks(c));
    assert CheckTimeout(c.connectionTimeoutSeconds) == AuthorizeChecks(c)[5];
    Success(AuthorizeArguments(c, p))
  }

  /** The argument list `refresh` builds once its checks have passed. */
  function RefreshArguments(c: JsConfig, o: JsOptions, p: Platform): (args: seq<JsVal>)
    requires CheckTimeout(c.connectionTimeoutSeconds).Success?
    ensures FollowsLayout(args, RefreshOp, c, o, p)
  {
    var common := [
      c.issuer,
      c.redirectUrl,
      c.clientId,
      c.clientSecret,
      o.refreshToken,
      c.scopes,
      OrDefault(c.additionalParameters, JObj([])),
      c.serviceConfiguration,
      ConvertTimeout(p, c.connectionTimeoutSeconds)];
    var suffix := match p
      case Android => [
        OrDefault(c.clientAuthMethod, JStr("none")),
        OrDefault(c.dangerouslyAllowInsecureHttpRequests, JBool(false)),
        c.customHeaders,
        OrDefault(c.androidAllowCustomBrowsers, JArr([]))]
      case IOS => [c.additionalHeaders, c.iosCustomBrowser]
      case Other => [];
    var args := common + suffix;
    var layout := Layout(RefreshOp, p);
    assert FollowsLayout(args, RefreshOp, c, o, p) by {
      forall i | 0 <= i < |args|
        ensures if layout[i] == ConnectionTimeoutSeconds then
                  args[i] == ConvertTimeout(p, c.connectionTimeoutSeconds)
                else
                  args[i] == OrDefault(Property(c, o, layout[i]), DefaultOf(RefreshOp, layout[i]))
      {
        if i < 9 {
        } else {
          if p == Android {
          } else if p == IOS {
          }
        }
      }
    }
    args
  }

  /** `refresh`: the authorize checks and a truthy refresh token, then a
      nine-argument prefix with the refresh token fifth. */
  function Refresh(c: JsConfig, o: JsOptions, p: Platform): (r: Outcome<seq<JsVal>>)
    ensures r.Success? <==> AllPass(RefreshChecks(c, o))
    ensures r.Failure? ==> IsFirstFailure(RefreshChecks(c, o), r.error)
    ensures r.Success? ==> FollowsLayout(r.value, RefreshOp, c, o, p)
  {
    var _ :- RunChecks(RefreshChecks(c, o));
    assert CheckTimeout(c.connectionTimeoutSeconds) == RefreshChecks(c, o)[5];
    Success(RefreshArguments(c, o, p))
  }

  /** The argument list `logout` builds once its checks have passed. */
  function LogoutArguments(c: JsConfig, o: JsOptions, p: Platform): (args: seq<JsVal>)
    ensures FollowsLayout(args, LogoutOp, c, o, p)
  {
    var common := [
      c.issuer,
      o.idToken,
      o.postLogoutRedirectUrl,
      c.serviceConfiguration,
      c.additionalParameters];
    var suffix := match p
      case Android => [
        OrDefault(c.dangerouslyAllowInsecureHttpRequests, JBool(false)),
        OrDefault(c.androidAllowCustomBrowsers, JArr([]))]
      case IOS => [c.iosCustomBrowser, OrDefault(c.iosPrefersEphemeralSession, JBool(false))]
      case Other => [];
    var args := common + suffix;
    var layout := Layout(LogoutOp, p);
    assert FollowsLayout(args, LogoutOp, c, o, p) by {
      forall i | 0 <= i < |args|
        ensures layout[i] != ConnectionTimeoutSeconds
        ensures args[i] == OrDefault(Property(c, o, layout[i]), DefaultOf(LogoutOp, layout[i]))
      {
        if i < 5 {
        } else {
          if p == Android {
          } else if p == IOS {
          }
        }
      }
    }
    args
  }

  /** `logout`: end-session source, post-logout redirect URL and a truthy
      ID token; then a five-argument prefix and a platform suffix. */
  function Logout(c: JsConfig, o: JsOptions, p: Platform): (r: Outcome<seq<JsVal>>)
    ensures r.Success? <==> AllPass(LogoutChecks(c, o))
    ensures r.Failure? ==> IsFirstFailure(LogoutChecks(c, o), r.error)
    ensures r.Success? ==> FollowsLayout(r.value, LogoutOp, c, o, p)
  {
    var _ :- RunChecks(LogoutChecks(c, o));
    Success(LogoutArguments(c, o, p))
  }

  // ---------------------------------------------------------------------
  // The client id across the calls

  /** Authorize, refresh and prefetch reject a client id that is not a
      string; with the endpoints in order it is the client id message that
      is raised. */
  lemma ClientIdChecked(c: JsConfig, o: JsOptions, p: Platform)
    requires !c.clientId.JStr?
    ensures Authorize(c, p).Failure? && Refresh(c, o, p).Failure?
    ensures PrefetchConfiguration(c, Android).Failure?
    ensures CheckServiceEndpoints(c.issuer, c.serviceConfiguration).Success? ==>
      Authorize(c, p).error == Invariant(CLIENT_ID_MESSAGE)
      && Refresh(c, o, p).error == Invariant(CLIENT_ID_MESSAGE)
  {
    assert AuthorizeChecks(c)[1].Failure?;
    assert RefreshChecks(c, o)[1].Failure?;
    assert PrefetchChecks(c)[1].Failure?;
    if CheckServiceEndpoints(c.issuer, c.serviceConfiguration).Success? {
      FirstFailureAt(AuthorizeChecks(c), 1, Authorize(c, p).error);
      FirstFailureAt(RefreshChecks(c, o), 1, Refresh(c, o, p).error);
    }
  }

  /** Logout never reads the client id: changing it changes nothing. */
  lemma LogoutIgnoresClientId(c: JsConfig, o: JsOptions, p: Platform, clientId: JsVal)
    ensures Logout(c.(clientId := clientId), o, p) == Logout(c, o, p)
  {
    assert LogoutChecks(c.(clientId := clientId), o) == LogoutChecks(c, o);
  }
}

=== FILE: revocation.dfy ===
/**
 * Token revocation (src/index.tsx:291-345), the one operation this layer
 * carries out itself, following section 2.1 of RFC 7009: guards, then the
 * revocation endpoint (configured, or read from the OpenID discovery
 * document), then one form-encoded POST. The two fetches are inputs: the
 * discovery outcome for a URL, and whether the POST is rejected.
 */
module Revocation {
  import opened Wrappers
  import opened Js
  import opened Config
  import opened Validators
  import opened FormUrlEncoded

  const WELL_KNOWN_PATH := "/.well-known/openid-configuration"
  const FORM_CONTENT_TYPE := "application/x-www-form-urlencoded"
  const NO_REVOCATION_ENDPOINT_MESSAGE := "The openid config does not specify a revocation endpoint"
  const REVOKE_FAILED_MESSAGE := "Failed to revoke token"

  /** Where the revocation endpoint comes from: the configuration, or the
      discovery document at a URL. */
  datatype EndpointSource = Explicit(url: string) | Discover(documentUrl: string)

  /** The outcome of fetching and parsing a discovery document. */
  datatype Discovery = Unreachable | Document(json: JsVal)

  /** An HTTP request as handed to `fetch`. */
  datatype Request = Request(httpMethod: string, url: string, headers: seq<(string, string)>, body: string)

  /** The value of the first header called `name`. */
  function HeaderValue(headers: seq<(string, string)>, name: string): Option<string> {
    if |headers| == 0 then None
    else if headers[0].0 == name then Some(headers[0].1)
    else HeaderValue(headers[1..], name)
  }

  /** The guards, then the endpoint choice: a truthy configured revocation
      endpoint is used as is; otherwise (even when the configured endpoint
      is "", which passed the guard) discovery at the issuer's well-known
      URL, whatever the issuer is. */
  function ResolveEndpointSource(c: JsConfig, o: JsOptions): (r: Outcome<EndpointSource>)
    ensures r.Success? <==> AllPass(RevokeChecks(c, o))
    ensures r.Failure? ==> IsFirstFailure(RevokeChecks(c, o), r.error) && r.error.Invariant?
    ensures r.Success? && Truthy(Get(c.serviceConfiguration, "revocationEndpoint")) ==>
      r.value == Explicit(ToString(Get(c.serviceConfiguration, "revocationEndpoint")))
    ensures r.Success? && !Truthy(Get(c.serviceConfiguration, "revocationEndpoint")) ==>
      r.value == Discover(ToString(c.issuer) + WELL_KNOWN_PATH)
  {
    var checks := RevokeChecks(c, o);
    var _ :- RunChecks(checks);
    if Truthy(c.serviceConfiguration) && Truthy(Get(c.serviceConfiguration, "revocationEndpoint")) then
      Success(Explicit(ToString(Get(c.serviceConfiguration, "revocationEndpoint"))))
    else
      Success(Discover(ToString(c.issuer) + WELL_KNOWN_PATH))
  }

  /** The endpoint named by a discovery document: its `revocation_endpoint`
      must be truthy. A failed fetch or parse is passed on unwrapped, and a
      `null` document makes the property read throw. */
  function DiscoveredEndpoint(d: Discovery): (r: Outcome<string>)
    ensures r.Success? <==>
      d.Document? && d.json != JNull && Truthy(Get(d.json, "revocation_endpoint"))
    ensures r.Success? ==> r.value == ToString(Get(d.json, "revocation_endpoint"))
    ensures d.Unreachable? ==> r == Failure(NetworkRejected)
    ensures d.Document? && (d.json.JNull? || d.json.JUndef?) ==> r == Failure(TypeError)
    ensures d.Document? && !d.json.JNull? && !d.json.JUndef?
            && !Truthy(Get(d.json, "revocation_endpoint")) ==>
      r == Failure(Invariant(NO_REVOCATION_ENDPOINT_MESSAGE))
    ensures r.Failure? ==> !r.error.PlainError?
  {
    match d
    case Unreachable => Failure(NetworkRejected)
    case Document(json) =>
      if json.JNull? || json.JUndef? then Failure(TypeError)
      else
        var endpoint := Get(json, "revocation_endpoint");
        var _ :- Require(Truthy(endpoint), NO_REVOCATION_ENDPOINT_MESSAGE);
        Success(ToString(endpoint))
  }

  /** The endpoint a call posts to, consulting `discover` only when the
      configuration does not name one. */
  function ResolveEndpoint(c: JsConfig, o: JsOptions, discover: string -> Discovery): (r: Outcome<string>)
    ensures r.Failure? ==> !r.error.PlainError?
  {
    var source :- ResolveEndpointSource(c, o);
    match source
    case Explicit(url) => Success(url)
    case Discover(documentUrl) => DiscoveredEndpoint(discover(documentUrl))
  }

  /** `token=<token>`, then `&client_id=<clientId>` when asked for; nothing
      is percent-encoded. When no value that is sent holds '&', '+' or '%',
      a server reads back exactly the token, and the client id exactly when
      `sendClientId` is truthy. */
  function RevocationBody(token: JsVal, clientId: JsVal, sendClientId: JsVal): (body: string)
    ensures FormSafe(ToString(token)) && (Truthy(sendClientId) ==> FormSafe(ToString(clientId))) ==>
      ParseForm(body) == [("token", ToString(token))]
                         + (if Truthy(sendClientId) then [("client_id", ToString(clientId))] else [])
  {
    var t := ToString(token);
    if Truthy(sendClientId) then
      var id := ToString(clientId);
      var body := "token=" + t + ("&client_id=" + id);
      assert FormSafe(t) && FormSafe(id) ==> ParseForm(body) == [("token", t), ("client_id", id)] by {
        if FormSafe(t) && FormSafe(id) {
          TokenAndClientIdReadBack(t, id);
        }
      }
      body
    else
      var body := "token=" + t;
      assert FormSafe(t) ==> ParseForm(body) == [("token", t)] by {
        if FormSafe(t) {
          TokenReadsBack(t);
        }
      }
      body
  }

  /** The POST of section 2.1 of RFC 7009: a form content type always,
      HTTP Basic credentials `clientId:clientSecret` only when asked for. */
  function RevocationRequest(c: JsConfig, o: JsOptions, url: string, b64: string -> string): (r: Request)
    ensures r.httpMethod == "POST" && r.url == url
    ensures HeaderValue(r.headers, "Content-Type") == Some(FORM_CONTENT_TYPE)
    ensures HeaderValue(r.headers, "Authorization").Some? <==> Truthy(o.includeBasicAuth)
    ensures Truthy(o.includeBasicAuth) ==>
      HeaderValue(r.headers, "Authorization")
        == Some("Basic " + b64(ToString(c.clientId) + ":" + ToString(c.clientSecret)))
    ensures |r.headers| == if Truthy(o.includeBasicAuth) then 2 else 1
  {
    var headers := [("Content-Type", FORM_CONTENT_TYPE)]
      + (if Truthy(o.includeBasicAuth)
         then [("Authorization", "Basic " + b64(ToString(c.clientId) + ":" + ToString(c.clientSecret)))]
         else []);
    Request("POST", url, headers, RevocationBody(o.tokenToRevoke, c.clientId, o.sendClientId))
  }

  /** `revoke`: resolve the endpoint, then POST; only a rejected POST is
      reported as "Failed to revoke token". On success the request that was
      sent is returned (the response itself is passed through untouched). */
  function Revoke(c: JsConfig, o: JsOptions, discover: string -> Discovery, b64: string -> string,
                  postRejects: Request -> bool): (r: Outcome<Request>)
    ensures !AllPass(RevokeChecks(c, o)) ==> r.Failure? && IsFirstFailure(RevokeChecks(c, o), r.error)
    ensures r.Success? ==> AllPass(RevokeChecks(c, o)) && !postRejects(r.value)
    ensures r.Success? ==>
      (r.value.httpMethod == "POST"
       && r.value.body == RevocationBody(o.tokenToRevoke, c.clientId, o.sendClientId))
    ensures ResolveEndpoint(c, o, discover).Failure? ==> r == Failure(ResolveEndpoint(c, o, discover).error)
    ensures ResolveEndpoint(c, o, discover).Success? ==>
      var request := RevocationRequest(c, o, ResolveEndpoint(c, o, discover).value, b64);
      r == if postRejects(request) then Failure(PlainError(REVOKE_FAILED_MESSAGE)) else Success(request)
  {
    var url :- ResolveEndpoint(c, o, discover);
    var request := RevocationRequest(c, o, url, b64);
    if postRejects(request) then Failure(PlainError(REVOKE_FAILED_MESSAGE)) else Success(request)
  }

  // ---------------------------------------------------------------------
  // Endpoint resolution

  /** With a configured endpoint no discovery happens: the outcome does not
      depend on what discovery would return. */
  lemma ExplicitEndpointSkipsDiscovery(c: JsConfig, o: JsOptions, d1: string -> Discovery,
                                       d2: string -> Discovery, b64: string -> string,
                                       postRejects: Request -> bool)
    requires Truthy(Get(c.serviceConfiguration, "revocationEndpoint"))
    ensures Revoke(c, o, d1, b64, postRejects) == Revoke(c, o, d2, b64, postRejects)
    ensures AllPass(RevokeChecks(c, o)) ==>
      ResolveEndpoint(c, o, d1) == Success(ToString(Get(c.serviceConfiguration, "revocationEndpoint")))
  {
  }

  /** Without one, discovery is consulted at exactly
      `issuer + "/.well-known/openid-configuration"` and nowhere else. */
  lemma DiscoveryOnlyAtWellKnownUrl(c: JsConfig, o: JsOptions, d1: string -> Discovery,
                                    d2: string -> Discovery, b64: string -> string,
                                    postRejects: Request -> bool)
    requires !Truthy(Get(c.serviceConfiguration, "revocationEndpoint"))
    requires d1(ToString(c.issuer) + WELL_KNOWN_PATH) == d2(ToString(c.issuer) + WELL_KNOWN_PATH)
    ensures Revoke(c, o, d1, b64, postRejects) == Revoke(c, o, d2, b64, postRejects)
    ensures AllPass(RevokeChecks(c, o)) ==>
      ResolveEndpoint(c, o, d1) == DiscoveredEndpoint(d1(ToString(c.issuer) + WELL_KNOWN_PATH))
  {
  }

  /** A discovery document without a truthy `revocation_endpoint` fails the
      call before any POST: the outcome does not depend on the POST. */
  lemma MissingRevocationEndpointNoPost(c: JsConfig, o: JsOptions, discover: string -> Discovery,
                                        b64: string -> string, p1: Request -> bool, p2: Request -> bool)
    requires AllPass(RevokeChecks(c, o))
    requires !Truthy(Get(c.serviceConfiguration, "revocationEndpoint"))
    requires discover(ToString(c.issuer) + WELL_KNOWN_PATH).Document?
    requires discover(ToString(c.issuer) + WELL_KNOWN_PATH).json.JObj?
    requires !Truthy(Get(discover(ToString(c.issuer) + WELL_KNOWN_PATH).json, "revocation_endpoint"))
    ensures Revoke(c, o, discover, b64, p1) == Failure(Invariant(NO_REVOCATION_ENDPOINT_MESSAGE))
    ensures Revoke(c, o, discover, b64, p1) == Revoke(c, o, discover, b64, p2)
  {
  }

  /** Only the POST's rejection becomes "Failed to revoke token"; guard,
      discovery and parse failures reach the caller as they are. */
  lemma OnlyPostFailureIsWrapped(c: JsConfig, o: JsOptions, discover: string -> Discovery,
                                 b64: string -> string, postRejects: Request -> bool)
    ensures Revoke(c, o, discover, b64, postRejects) == Failure(PlainError(REVOKE_FAILED_MESSAGE))
      <==> ResolveEndpoint(c, o, discover).Success?
           && postRejects(RevocationRequest(c, o, ResolveEndpoint(c, o, discover).value, b64))
    ensures ResolveEndpoint(c, o, discover).Failure? ==>
      Revoke(c, o, discover, b64, postRejects) == Failure(ResolveEndpoint(c, o, discover).error)
  {
  }

  /** The guard accepts an empty configured endpoint even without an
      issuer, and discovery then runs at the issuer's string, which for a
      missing issuer is "undefined/.well-known/openid-configuration". */
  lemma EmptyConfiguredEndpointDiscoversAtUndefined(c: JsConfig, o: JsOptions)
    requires Truthy(o.tokenToRevoke) && c.clientId.JStr?
    requires c.serviceConfiguration.JObj? && Get(c.serviceConfiguration, "revocationEndpoint") == JStr("")
    ensures ResolveEndpointSource(c, o) == Success(Discover(ToString(c.issuer) + WELL_KNOWN_PATH))
    ensures c.issuer.JUndef? ==>
      ResolveEndpointSource(c, o) == Success(Discover("undefined" + WELL_KNOWN_PATH))
  {
    var checks := RevokeChecks(c, o);
    assert checks[2].Success?;
  }

  // ---------------------------------------------------------------------
  // What the endpoint receives

  lemma TokenReadsBack(t: string)
    requires FormSafe(t)
    ensures ParseForm("token=" + t) == [("token", t)]
  {
    assert '=' !in "token" && FormSafe("token");
    assert "token=" + t == "token" + "=" + t;
    OnePairForm("token", t);
  }

  lemma TokenAndClientIdReadBack(t: string, clientId: string)
    requires FormSafe(t) && FormSafe(clientId)
    ensures ParseForm("token=" + t + ("&client_id=" + clientId)) == [("token", t), ("client_id", clientId)]
  {
    assert '=' !in "token" && FormSafe("token");
    assert '=' !in "client_id" && FormSafe("client_id");
    assert "token=" + t + ("&client_id=" + clientId)
      == "token" + "=" + t + "&" + ("client_id" + "=" + clientId);
    TwoPairForm("token", t, "client_id", clientId);
  }

  /** Without percent-encoding, a '+' in the token reaches the server as a
      space. */
  lemma PlusInTokenArrivesAsSpace()
    ensures ParseForm(RevocationBody(JStr("a+b"), JStr("c"), JBool(false))) == [("token", "a b")]
  {
    assert DecodeComponent("a+b") == "a b" by {
      assert DecodeComponent("b") == "b";
      assert DecodeComponent("+b") == " b";
    }
    assert ParseForm("token" + "=" + "a+b") == [("token", DecodeComponent("a+b"))] by {
      assert '=' !in "token" && FormSafe("token") && '&' !in "a+b";
      OnePairFormDecoded("token", "a+b");
    }
    assert RevocationBody(JStr("a+b"), JStr("c"), JBool(false)) == "token" + "=" + "a+b";
  }

  /** Revoke rejects a client id that is not a string; with a token to
      revoke it is the client id message that is raised, before any
      discovery or POST. */
  lemma RevokeRequiresClientId(c: JsConfig, o: JsOptions, discover: string -> Discovery,
                               b64: string -> string, postRejects: Request -> bool)
    requires !c.clientId.JStr?
    ensures Revoke(c, o, discover, b64, postRejects).Failure?
    ensures Truthy(o.tokenToRevoke) ==>
      Revoke(c, o, discover, b64, postRejects).error == Invariant(CLIENT_ID_MESSAGE)
  {
    assert RevokeChecks(c, o)[1].Failure?;
    if Truthy(o.tokenToRevoke) {
      FirstFailureAt(RevokeChecks(c, o), 1, Revoke(c, o, discover, b64, postRejects).error);
    }
  }
}

=== FILE: typed_calls.dfy ===
/**
 * What the runtime checks make of inputs that respect the declared types:
 * which of them a type-checked caller can still fail.
 */
module TypedCalls {
  import opened Wrappers
  import opened Js
  import opened Config
  import opened Validators
  import opened NativeArgs
  import opened Revocation
  import opened Types

  /** A string record is what both header checks want of a group. */
  lemma StringMapIsStringRecord(m: StringMap)
    ensures IsStringRecord(StringMapJs(m))
  {
    var v := StringMapJs(m);
    assert forall i :: 0 <= i < |ObjectValues(v)| ==> ObjectValues(v)[i] == JStr(m[i].1);
  }

  /** The declared union makes the endpoint check of authorize, refresh and
      prefetch pass: either the issuer is a string, or the service
      configuration has string authorization and token endpoints. */
  lemma ServiceEndpointsFromTypes(b: BaseConfiguration)
    ensures CheckServiceEndpoints(b.IssuerJs(), b.ServiceConfigurationJs()).Success?
  {
    if !b.HasIssuer() {
      ServiceConfigurationFields(b.serviceConfiguration);
    }
  }

  /** The issuer and service configuration values of a typed base
      configuration. */
  lemma BaseConfigurationJs(b: BaseConfiguration)
    ensures IsString(b.IssuerJs()) <==> b.HasIssuer()
    ensures b.ServiceConfigurationJs().JObj? <==> b.Service().Some?
    ensures b.Service().Some? ==> b.ServiceConfigurationJs() == b.Service().value.ToJs()
  {
  }

  /** A field is found at the first position that carries its name. */
  lemma {:induction false} LookupAt(fields: seq<(string, JsVal)>, i: nat, key: string)
    requires i < |fields| && fields[i].0 == key
    requires forall j :: 0 <= j < i ==> fields[j].0 != key
    ensures Lookup(fields, key) == fields[i].1
  {
    if i > 0 {
      LookupAt(fields[1..], i - 1, key);
    }
  }

  /** What a service configuration's object gives each endpoint. */
  lemma ServiceConfigurationFields(sc: ServiceConfiguration)
    ensures Get(sc.ToJs(), "authorizationEndpoint") == JStr(sc.authorizationEndpoint)
    ensures Get(sc.ToJs(), "tokenEndpoint") == JStr(sc.tokenEndpoint)
    ensures Get(sc.ToJs(), "revocationEndpoint") == OptionalStringJs(sc.revocationEndpoint)
    ensures Get(sc.ToJs(), "endSessionEndpoint") == OptionalStringJs(sc.endSessionEndpoint)
  {
    var fields := sc.ToJs().fields;
    assert |"authorizationEndpoint"| == 21 && |"tokenEndpoint"| == 13;
    assert |"revocationEndpoint"| == 18 && |"registrationEndpoint"| == 20;
    assert |"endSessionEndpoint"| == 18 && "endSessionEndpoint"[0] != "revocationEndpoint"[0];
    LookupAt(fields, 1, "tokenEndpoint");
    LookupAt(fields, 2, "revocationEndpoint");
    LookupAt(fields, 4, "endSessionEndpoint");
  }

  /** A typed `CustomHeaders` passes exactly when it names at least one
      group, no named group is `undefined` and no undeclared property rides
      along: the type admits `{}`, `{ token: undefined }` and (on an object
      that is not a fresh literal) extra properties; the check rejects all
      three, with its message. */
  lemma CustomHeadersFromTypes(h: CustomHeaders)
    ensures CheckCustomHeaders(h.ToJs()).Success? <==>
      h.HasGroup() && h.NoUndefinedGroup() && h.NoExtraKey()
    ensures CheckCustomHeaders(h.ToJs()).Failure? ==>
      CheckCustomHeaders(h.ToJs()).error == Invariant(CUSTOM_HEADERS_MESSAGE)
  {
    var a := HeaderGroupEntry("authorize", h.authorize);
    var t := HeaderGroupEntry("token", h.token);
    var r := HeaderGroupEntry("register", h.register);
    GroupEntryWellFormed("authorize", h.authorize);
    GroupEntryWellFormed("token", h.token);
    GroupEntryWellFormed("register", h.register);
    var declared := a + t + r;
    var fields := declared + h.extra;
    assert h.ToJs().fields == fields;
    if !h.NoExtraKey() {
      assert fields[|declared|] == h.extra[0];
      assert !IsAuthorizedKey(fields[|declared|].0);
      assert !WellFormedCustomHeaders(h.ToJs());
    } else {
      assert fields == declared;
      assert forall i :: 0 <= i < |fields| ==> IsAuthorizedKey(fields[i].0) && !fields[i].1.JNull? by {
        forall i | 0 <= i < |fields|
          ensures IsAuthorizedKey(fields[i].0) && !fields[i].1.JNull?
        {
          if i < |a| {
            assert fields[i] == a[i];
          } else if i < |a| + |t| {
            assert fields[i] == t[i - |a|];
          } else {
            assert fields[i] == r[i - |a| - |t|];
          }
        }
      }
      assert h.HasGroup() <==> |fields| > 0;
      if h.NoUndefinedGroup() {
        forall i | 0 <= i < |fields|
          ensures IsStringRecord(fields[i].1)
        {
          if i < |a| {
            assert fields[i] == a[i];
          } else if i < |a| + |t| {
            assert fields[i] == t[i - |a|];
          } else {
            assert fields[i] == r[i - |a| - |t|];
          }
        }
      } else if h.authorize.Undefined? {
        assert !IsStringRecord(fields[0].1);
      } else if h.token.Undefined? {
        assert !IsStringRecord(fields[|a|].1);
      } else {
        assert !IsStringRecord(fields[|a| + |t|].1);
      }
    }
  }

  /** A group contributes at most one entry, under its authorized key, which
      is a string record exactly when the group is given a map. */
  lemma GroupEntryWellFormed(key: string, group: HeaderGroup)
    requires IsAuthorizedKey(key)
    ensures |HeaderGroupEntry(key, group)| == if group.Omitted? then 0 else 1
    ensures forall i :: 0 <= i < |HeaderGroupEntry(key, group)| ==>
      HeaderGroupEntry(key, group)[i].0 == key
      && !HeaderGroupEntry(key, group)[i].1.JNull?
      && (IsStringRecord(HeaderGroupEntry(key, group)[i].1) <==> group.Given?)
  {
    if group.Given? {
      StringMapIsStringRecord(group.headers);
    }
  }

  /** Typed additional headers and timeouts always pass. */
  lemma AdditionalHeadersAndTimeoutFromTypes(m: Option<StringMap>, timeout: Option<int>)
    ensures CheckAdditionalHeaders(OptionalStringMapJs(m)).Success?
    ensures CheckTimeout(OptionalIntJs(timeout)).Success?
  {
    if m.Some? {
      StringMapIsStringRecord(m.value);
    }
  }

  /** The header condition of a typed configuration is all the runtime
      checks of authorize can reject. */
  lemma AuthorizeChecksFromTypes(c: AuthConfiguration)
    ensures AllPass(AuthorizeChecks(c.ToJs())) <==> c.CustomHeadersAccepted()
    ensures AllPass(PrefetchChecks(c.ToJs())) <==> c.CustomHeadersAccepted()
  {
    ServiceEndpointsFromTypes(c.base);
    AdditionalHeadersAndTimeoutFromTypes(c.additionalHeaders, c.connectionTimeoutSeconds);
    if c.customHeaders.Some? {
      CustomHeadersFromTypes(c.customHeaders.value);
    }
    var checks := AuthorizeChecks(c.ToJs());
    assert checks[3] == CheckCustomHeaders(c.ToJs().customHeaders);
    var prefetch := PrefetchChecks(c.ToJs());
    assert prefetch[3] == CheckCustomHeaders(c.ToJs().customHeaders);
  }

  /** For a type-checked configuration, authorize (and prefetch on Android)
      fails only on custom headers given as `{}`, with a group set to
      `undefined` or with an undeclared property, and then with the custom
      headers message. */
  lemma AuthorizeFromTypes(c: AuthConfiguration, p: Platform)
    ensures Authorize(c.ToJs(), p).Success? <==> c.CustomHeadersAccepted()
    ensures Authorize(c.ToJs(), p).Failure? ==>
      Authorize(c.ToJs(), p).error == Invariant(CUSTOM_HEADERS_MESSAGE)
    ensures PrefetchConfiguration(c.ToJs(), Android).Success? <==> c.CustomHeadersAccepted()
  {
    AuthorizeChecksFromTypes(c);
    var checks := AuthorizeChecks(c.ToJs());
    if !c.CustomHeadersAccepted() {
      CustomHeadersFromTypes(c.customHeaders.value);
      ServiceEndpointsFromTypes(c.base);
      var e := Authorize(c.ToJs(), p).error;
      assert IsFirstFailure(checks, e);
      var i :| 0 <= i < |checks| && checks[i] == Failure(e)
               && forall j :: 0 <= j < i ==> checks[j].Success?;
      AdditionalHeadersAndTimeoutFromTypes(c.additionalHeaders, c.connectionTimeoutSeconds);
      assert i == 3;
    }
  }

  /** For a type-checked configuration, refresh additionally fails on an
      empty refresh token. */
  lemma RefreshFromTypes(c: AuthConfiguration, rc: RefreshConfiguration, p: Platform)
    ensures Refresh(c.ToJs(), rc.ToJs(), p).Success? <==>
      c.CustomHeadersAccepted() && rc.refreshToken != ""
  {
    AuthorizeChecksFromTypes(c);
    var checks := RefreshChecks(c.ToJs(), rc.ToJs());
    assert checks[..6] == AuthorizeChecks(c.ToJs());
    assert checks[6] == Require(rc.refreshToken != "", REFRESH_TOKEN_MESSAGE);
  }

  /** The declared types do not guarantee an end-session source: a typed
      logout succeeds exactly when there is an issuer or an end-session
      endpoint, and the ID token is not empty. */
  lemma LogoutFromTypes(c: EndSessionConfiguration, l: LogoutConfiguration, p: Platform)
    ensures Logout(c.ToJs(), l.ToJs(), p).Success? <==>
      (c.base.HasIssuer()
       || (c.base.Service().Some? && c.base.Service().value.endSessionEndpoint.Some?))
      && l.idToken != ""
  {
    if c.base.Service().Some? {
      ServiceConfigurationFields(c.base.Service().value);
    }
    BaseConfigurationJs(c.base);
    var checks := LogoutChecks(c.ToJs(), l.ToJs());
    assert checks[0] == CheckEndSessionEndpoint(c.base.IssuerJs(), c.base.ServiceConfigurationJs());
    assert checks[1].Success?;
    assert checks[2].Success? <==> l.idToken != "";
  }

  /** The guards of a typed revoke pass exactly when the token is not empty
      and there is an issuer or a revocation endpoint; a non-empty
      revocation endpoint is used without discovery. */
  lemma RevokeFromTypes(b: BaseAuthConfiguration, rc: RevokeConfiguration)
    ensures ResolveEndpointSource(b.ToJs(), rc.ToJs()).Success? <==>
      rc.tokenToRevoke != ""
      && (b.base.HasIssuer()
          || (b.base.Service().Some? && b.base.Service().value.revocationEndpoint.Some?))
    ensures ResolveEndpointSource(b.ToJs(), rc.ToJs()).Success? ==>
      (ResolveEndpointSource(b.ToJs(), rc.ToJs()).value.Explicit?
       <==> b.base.Service().Some? && b.base.Service().value.revocationEndpoint.Some?
            && b.base.Service().value.revocationEndpoint.value != "")
  {
    if b.base.Service().Some? {
      ServiceConfigurationFields(b.base.Service().value);
    }
    BaseConfigurationJs(b.base);
    var checks := RevokeChecks(b.ToJs(), rc.ToJs());
    assert checks[0].Success? <==> rc.tokenToRevoke != "";
    assert checks[1].Success?;
    assert checks[2] == CheckRevocationEndpoint(b.base.IssuerJs(), b.base.ServiceConfigurationJs());
  }

  /** A typed call without a client secret sends the literal text
      "undefined" as the Basic password. */
  lemma BasicAuthWithoutSecret(b: BaseAuthConfiguration, rc: RevokeConfiguration, url: string,
                               b64: string -> string)
    requires b.clientSecret.None? && rc.includeBasicAuth == Some(true)
    ensures HeaderValue(RevocationRequest(b.ToJs(), rc.ToJs(), url, b64).headers, "Authorization")
      == Some("Basic " + b64(b.clientId + ":undefined"))
  {
    assert b.clientId + ":" + "undefined" == b.clientId + ":undefined";
  }
}

=== FILE: types.dfy ===
/**
 * The declared TypeScript types of src/types.ts, and how a value of each
 * type appears at run time (an absent optional property reads as
 * undefined). These are what a type-checked caller passes; the checks in
 * Validators exist for callers the type checker did not see.
 */
module Types {
  import opened Wrappers
  import opened Js
  import opened Config
  import Validators

  /** `Record<string, string>`, in enumeration order. */
  type StringMap = seq<(string, string)>

  function StringMapJs(m: StringMap): JsVal {
    JObj(seq(|m|, i requires 0 <= i < |m| => (m[i].0, JStr(m[i].1))))
  }

  function OptionalStringJs(s: Option<string>): JsVal {
    match s
    case Some(v) => JStr(v)
    case None => JUndef
  }

  function OptionalBoolJs(b: Option<bool>): JsVal {
    match b
    case Some(v) => JBool(v)
    case None => JUndef
  }

  function OptionalIntJs(n: Option<int>): JsVal {
    match n
    case Some(v) => JNum(v)
    case None => JUndef
  }

  function OptionalStringMapJs(m: Option<StringMap>): JsVal {
    match m
    case Some(v) => StringMapJs(v)
    case None => JUndef
  }

  function StringsJs(xs: seq<string>): JsVal {
    JArr(seq(|xs|, i requires 0 <= i < |xs| => JStr(xs[i])))
  }

  /** `ServiceConfiguration`: the authorization and token endpoints are
      always there; the other three are optional. */
  datatype ServiceConfiguration = ServiceConfiguration(
    authorizationEndpoint: string,
    tokenEndpoint: string,
    revocationEndpoint: Option<string>,
    registrationEndpoint: Option<string>,
    endSessionEndpoint: Option<string>)
  {
    function ToJs(): JsVal {
      JObj([ ("authorizationEndpoint", JStr(authorizationEndpoint)),
             ("tokenEndpoint", JStr(tokenEndpoint)),
             ("revocationEndpoint", OptionalStringJs(revocationEndpoint)),
             ("registrationEndpoint", OptionalStringJs(registrationEndpoint)),
             ("endSessionEndpoint", OptionalStringJs(endSessionEndpoint)) ])
    }
  }

  /** `BaseConfiguration`: a union whose two members guarantee that an
      issuer or a service configuration (or both) is present. */
  datatype BaseConfiguration =
    | WithServiceConfiguration(optionalIssuer: Option<string>, serviceConfiguration: ServiceConfiguration)
    | WithIssuer(issuer: string, optionalServiceConfiguration: Option<ServiceConfiguration>)
  {
    function IssuerJs(): JsVal {
      match this
      case WithServiceConfiguration(i, _) => OptionalStringJs(i)
      case WithIssuer(i, _) => JStr(i)
    }

    function ServiceConfigurationJs(): JsVal {
      match this
      case WithServiceConfiguration(_, sc) => sc.ToJs()
      case WithIssuer(_, sc) => if sc.Some? then sc.value.ToJs() else JUndef
    }

    predicate HasIssuer() {
      WithIssuer? || optionalIssuer.Some?
    }

    /** The service configuration, when there is one. */
    function Service(): Option<ServiceConfiguration> {
      match this
      case WithServiceConfiguration(_, sc) => Some(sc)
      case WithIssuer(_, sc) => sc
    }
  }

  /** One optional group of a `CustomHeaders` object. An optional property
      can be left out, or be present with the value `undefined`; both
      satisfy the declared type. */
  datatype HeaderGroup = Omitted | Undefined | Given(headers: StringMap)

  /** The entries a group contributes to the object: none when left out. */
  function HeaderGroupEntry(key: string, group: HeaderGroup): seq<(string, JsVal)> {
    match group
    case Given(m) => [(key, StringMapJs(m))]
    case Undefined => [(key, JUndef)]
    case Omitted => []
  }

  /** A property name `CustomHeaders` does not declare. */
  type UndeclaredKey = k: string | !Validators.IsAuthorizedKey(k) witness "x"

  /** `CustomHeaders`: the optional keys authorize, token and register, each
      a string record. TypeScript rejects undeclared properties only on a
      fresh object literal: an object built elsewhere that also has a
      declared key may carry `extra` properties of any value and still be
      passed as `CustomHeaders`. (The type is weak, every property being
      optional, so an object sharing no declared key is rejected; this model
      admits one too, and the check rejects it all the same.) */
  datatype CustomHeaders = CustomHeaders(
    authorize: HeaderGroup,
    token: HeaderGroup,
    register: HeaderGroup,
    extra: seq<(UndeclaredKey, JsVal)>)
  {
    /** At least one of the three keys is present. */
    predicate HasGroup() {
      !authorize.Omitted? || !token.Omitted? || !register.Omitted?
    }

    /** No present key holds `undefined`. */
    predicate NoUndefinedGroup() {
      !authorize.Undefined? && !token.Undefined? && !register.Undefined?
    }

    /** No undeclared property rides along. */
    predicate NoExtraKey() {
      extra == []
    }

    /** The undeclared properties are placed last; their position does not
        matter to any check. */
    function ToJs(): JsVal {
      JObj(HeaderGroupEntry("authorize", authorize)
           + HeaderGroupEntry("token", token)
           + HeaderGroupEntry("register", register)
           + extra)
    }
  }

  /** `clientAuthMethod`: basic, post or none. */
  datatype ClientAuthMethod = Basic | Post | NoClientAuth {
    function Name(): string {
      match this
      case Basic => "basic"
      case Post => "post"
      case NoClientAuth => "none"
    }
  }

  /** `iosCustomBrowser`. */
  datatype IosCustomBrowser = Safari | Chrome | Opera | Firefox {
    function Name(): string {
      match this
      case Safari => "safari"
      case Chrome => "chrome"
      case Opera => "opera"
      case Firefox => "firefox"
    }
  }

  /** The entries of `androidAllowCustomBrowsers`. */
  datatype AndroidCustomBrowser =
    | AndroidChrome | ChromeCustomTab | AndroidFirefox | FirefoxCustomTab | Samsung | SamsungCustomTab
  {
    function Name(): string {
      match this
      case AndroidChrome => "chrome"
      case ChromeCustomTab => "chromeCustomTab"
      case AndroidFirefox => "firefox"
      case FirefoxCustomTab => "firefoxCustomTab"
      case Samsung => "samsung"
      case SamsungCustomTab => "samsungCustomTab"
    }
  }

  function OptionalIosBrowserJs(b: Option<IosCustomBrowser>): JsVal {
    match b
    case Some(v) => JStr(v.Name())
    case None => JUndef
  }

  function OptionalAndroidBrowsersJs(bs: Option<seq<AndroidCustomBrowser>>): JsVal {
    match bs
    case Some(v) => StringsJs(seq(|v|, i requires 0 <= i < |v| => v[i].Name()))
    case None => JUndef
  }

  /** `BaseAuthConfiguration`: the base plus a client id and optional secret. */
  datatype BaseAuthConfiguration = BaseAuthConfiguration(
    base: BaseConfiguration,
    clientId: string,
    clientSecret: Option<string>)
  {
    function ToJs(): JsConfig {
      EmptyConfig.(
        issuer := base.IssuerJs(),
        serviceConfiguration := base.ServiceConfigurationJs(),
        clientId := JStr(clientId),
        clientSecret := OptionalStringJs(clientSecret))
    }
  }

  /** `AuthConfiguration`. */
  datatype AuthConfiguration = AuthConfiguration(
    base: BaseConfiguration,
    clientId: string,
    clientSecret: Option<string>,
    scopes: seq<string>,
    redirectUrl: string,
    additionalParameters: Option<StringMap>,
    clientAuthMethod: Option<ClientAuthMethod>,
    dangerouslyAllowInsecureHttpRequests: Option<bool>,
    customHeaders: Option<CustomHeaders>,
    additionalHeaders: Option<StringMap>,
    connectionTimeoutSeconds: Option<int>,
    useNonce: Option<bool>,
    usePKCE: Option<bool>,
    warmAndPrefetchChrome: Option<bool>,
    skipCodeExchange: Option<bool>,
    iosCustomBrowser: Option<IosCustomBrowser>,
    androidAllowCustomBrowsers: Option<seq<AndroidCustomBrowser>>,
    androidTrustedWebActivity: Option<bool>,
    iosPrefersEphemeralSession: Option<bool>)
  {
    function ToJs(): JsConfig {
      JsConfig(
        base.IssuerJs(),
        base.ServiceConfigurationJs(),
        JStr(clientId),
        OptionalStringJs(clientSecret),
        StringsJs(scopes),
        JStr(redirectUrl),
        OptionalStringMapJs(additionalParameters),
        if clientAuthMethod.Some? then JStr(clientAuthMethod.value.Name()) else JUndef,
        OptionalBoolJs(dangerouslyAllowInsecureHttpRequests),
        if customHeaders.Some? then customHeaders.value.ToJs() else JUndef,
        OptionalStringMapJs(additionalHeaders),
        OptionalIntJs(connectionTimeoutSeconds),
        OptionalBoolJs(useNonce),
        OptionalBoolJs(usePKCE),
        OptionalBoolJs(warmAndPrefetchChrome),
        OptionalBoolJs(skipCodeExchange),
        OptionalIosBrowserJs(iosCustomBrowser),
        OptionalAndroidBrowsersJs(androidAllowCustomBrowsers),
        OptionalBoolJs(androidTrustedWebActivity),
        OptionalBoolJs(iosPrefersEphemeralSession))
    }

    /** The custom headers are absent, or name at least one group, give
        every named group a map and carry no undeclared property. */
    predicate CustomHeadersAccepted() {
      customHeaders.None?
      || (customHeaders.value.HasGroup() && customHeaders.value.NoUndefinedGroup()
          && customHeaders.value.NoExtraKey())
    }
  }

  /** `EndSessionConfiguration`. */
  datatype EndSessionConfiguration = EndSessionConfiguration(
    base: BaseConfiguration,
    clientId: string,
    clientSecret: Option<string>,
    additionalParameters: Option<StringMap>,
    dangerouslyAllowInsecureHttpRequests: Option<bool>,
    iosPrefersEphemeralSession: Option<bool>,
    iosCustomBrowser: Option<IosCustomBrowser>,
    androidAllowCustomBrowsers: Option<seq<AndroidCustomBrowser>>)
  {
    function ToJs(): JsConfig {
      EmptyConfig.(
        issuer := base.IssuerJs(),
        serviceConfiguration := base.ServiceConfigurationJs(),
        clientId := JStr(clientId),
        clientSecret := OptionalStringJs(clientSecret),
        additionalParameters := OptionalStringMapJs(additionalParameters),
        dangerouslyAllowInsecureHttpRequests := OptionalBoolJs(dangerouslyAllowInsecureHttpRequests),
        iosPrefersEphemeralSession := OptionalBoolJs(iosPrefersEphemeralSession),
        iosCustomBrowser := OptionalIosBrowserJs(iosCustomBrowser),
        androidAllowCustomBrowsers := OptionalAndroidBrowsersJs(androidAllowCustomBrowsers))
    }
  }

  /** `RevokeConfiguration`: the token is required, both flags optional. */
  datatype RevokeConfiguration = RevokeConfiguration(
    tokenToRevoke: string,
    sendClientId: Option<bool>,
    includeBasicAuth: Option<bool>)
  {
    function ToJs(): JsOptions {
      NoOptions.(
        tokenToRevoke := JStr(tokenToRevoke),
        sendClientId := OptionalBoolJs(sendClientId),
        includeBasicAuth := OptionalBoolJs(includeBasicAuth))
    }
  }

  /** `RefreshConfiguration`. */
  datatype RefreshConfiguration = RefreshConfiguration(refreshToken: string) {
    function ToJs(): JsOptions {
      NoOptions.(refreshToken := JStr(refreshToken))
    }
  }

  /** `LogoutConfiguration`. */
  datatype LogoutConfiguration = LogoutConfiguration(idToken: string, postLogoutRedirectUrl: string) {
    function ToJs(): JsOptions {
      NoOptions.(idToken := JStr(idToken), postLogoutRedirectUrl := JStr(postLogoutRedirectUrl))
    }
  }

  /** `RefreshResult`: the engine may return no new refresh token (null);
      keeping the previous one is the caller's business. */
  datatype RefreshResult = RefreshResult(
    accessToken: string,
    accessTokenExpirationDate: string,
    additionalParameters: Option<StringMap>,
    idToken: string,
    refreshToken: Option<string>,
    tokenType: string)
}

=== FILE: validators.dfy ===
/**
 * The configuration checks that run before any native or network call
 * (src/index.tsx, the `validate*` helpers). Each check either passes or
 * fails with the message the source's `invariant` call carries, and each
 * operation runs its checks in a fixed order, stopping at the first failure.
 */
module Validators {
  import opened Wrappers
  import opened Js
  import opened Config

  const ENDPOINTS_MESSAGE := "Config error: you must provide either an issuer or a service endpoints"
  const REVOCATION_ENDPOINT_MESSAGE := "Config error: you must provide either an issuer or a revocation endpoint"
  const END_SESSION_ENDPOINT_MESSAGE := "Config error: you must provide either an issuer or an end session endpoint"
  const CLIENT_ID_MESSAGE := "Config error: clientId must be a string"
  const REDIRECT_URL_MESSAGE := "Config error: redirectUrl must be a string"
  const CUSTOM_HEADERS_MESSAGE := "Config error: customHeaders type must be { token?: { [key: string]: string }, authorize?: { [key: string]: string }, register: { [key: string]: string }}"
  const ADDITIONAL_HEADERS_MESSAGE := "Config error: additionalHeaders must be { [key: string]: string }"
  const TIMEOUT_MESSAGE := "Config error: connectionTimeoutSeconds must be a number"
  const REFRESH_TOKEN_MESSAGE := "Please pass in a refresh token"
  const TOKEN_TO_REVOKE_MESSAGE := "Please include the token to revoke"
  const ID_TOKEN_MESSAGE := "Please pass in the ID token"

  /** The only top-level keys a `customHeaders` map may have. */
  const AUTHORIZED_HEADER_KEYS: seq<string> := ["token", "authorize", "register"]

  predicate IsAuthorizedKey(key: string) {
    key in AUTHORIZED_HEADER_KEYS
  }

  predicate NotString(v: JsVal) {
    !IsString(v)
  }

  // ---------------------------------------------------------------------
  // Running a sequence of checks

  predicate AllPass(checks: seq<Outcome<()>>) {
    forall i :: 0 <= i < |checks| ==> checks[i].Success?
  }

  /** `e` is the error of the first failing check. */
  predicate IsFirstFailure(checks: seq<Outcome<()>>, e: JsError) {
    exists i :: 0 <= i < |checks| && checks[i] == Failure(e)
                && forall j :: 0 <= j < i ==> checks[j].Success?
  }

  /** A run of `invariant` calls: the first failure is raised and the
      remaining checks never run. */
  function RunChecks(checks: seq<Outcome<()>>): (r: Outcome<()>)
    ensures r.Success? <==> AllPass(checks)
    ensures r.Failure? ==> IsFirstFailure(checks, r.error)
  {
    if |checks| == 0 then Success(())
    else if checks[0].Failure? then checks[0]
    else
      var rest := RunChecks(checks[1..]);
      assert forall i :: 1 <= i < |checks| ==> checks[i] == checks[1..][i - 1];
      assert rest.Failure? ==> IsFirstFailure(checks[1..], rest.error);
      assert rest.Failure? ==> exists i :: 1 <= i < |checks| && checks[i] == Failure(rest.error)
                                         && forall j :: 1 <= j < i ==> checks[j].Success?;
      rest
  }

  /** When every check before position `k` passes and the one at `k`
      fails, the first failure is the one at `k`. */
  lemma FirstFailureAt(checks: seq<Outcome<()>>, k: nat, e: JsError)
    requires k < |checks| && checks[k].Failure?
    requires forall j :: 0 <= j < k ==> checks[j].Success?
    requires IsFirstFailure(checks, e)
    ensures e == checks[k].error
  {
    var i :| 0 <= i < |checks| && checks[i] == Failure(e) && forall j :: 0 <= j < i ==> checks[j].Success?;
    assert i == k;
  }

  // ---------------------------------------------------------------------
  // Endpoint sources (src/index.tsx:33-63)

  /** Authorize, refresh and prefetch need an issuer or both the
      authorization and token endpoints. A non-object service configuration
      has no endpoints, and the empty issuer string is accepted. */
  function CheckServiceEndpoints(issuer: JsVal, serviceConfiguration: JsVal): (r: Outcome<()>)
    ensures r.Success? <==>
      IsString(issuer)
      || (serviceConfiguration.JObj?
          && IsString(Get(serviceConfiguration, "authorizationEndpoint"))
          && IsString(Get(serviceConfiguration, "tokenEndpoint")))
    ensures r.Failure? ==> r.error == Invariant(ENDPOINTS_MESSAGE)
  {
    Require(IsString(issuer)
            || (Truthy(serviceConfiguration)
                && IsString(Get(serviceConfiguration, "authorizationEndpoint"))
                && IsString(Get(serviceConfiguration, "tokenEndpoint"))),
            ENDPOINTS_MESSAGE)
  }

  /** Revoke needs an issuer or a revocation endpoint (possibly empty). */
  function CheckRevocationEndpoint(issuer: JsVal, serviceConfiguration: JsVal): (r: Outcome<()>)
    ensures r.Success? <==>
      IsString(issuer)
      || (serviceConfiguration.JObj? && IsString(Get(serviceConfiguration, "revocationEndpoint")))
    ensures r.Failure? ==> r.error == Invariant(REVOCATION_ENDPOINT_MESSAGE)
  {
    Require(IsString(issuer)
            || (Truthy(serviceConfiguration)
                && IsString(Get(serviceConfiguration, "revocationEndpoint"))),
            REVOCATION_ENDPOINT_MESSAGE)
  }

  /** Logout needs an issuer or an end-session endpoint (possibly empty). */
  function CheckEndSessionEndpoint(issuer: JsVal, serviceConfiguration: JsVal): (r: Outcome<()>)
    ensures r.Success? <==>
      IsString(issuer)
      || (serviceConfiguration.JObj? && IsString(Get(serviceConfiguration, "endSessionEndpoint")))
    ensures r.Failure? ==> r.error == Invariant(END_SESSION_ENDPOINT_MESSAGE)
  {
    Require(IsString(issuer)
            || (Truthy(serviceConfiguration)
                && IsString(Get(serviceConfiguration, "endSessionEndpoint"))),
            END_SESSION_ENDPOINT_MESSAGE)
  }

  // ---------------------------------------------------------------------
  // Client id and redirect URL (src/index.tsx:64-73)

  /** Any string, the empty one included, is a client id. */
  function CheckClientId(clientId: JsVal): (r: Outcome<()>)
    ensures r.Success? <==> clientId.JStr?
    ensures r.Failure? ==> r.error == Invariant(CLIENT_ID_MESSAGE)
  {
    Require(IsString(clientId), CLIENT_ID_MESSAGE)
  }

  /** Any string, the empty one included, is a redirect URL. */
  function CheckRedirectUrl(redirectUrl: JsVal): (r: Outcome<()>)
    ensures r.Success? <==> redirectUrl.JStr?
    ensures r.Failure? ==> r.error == Invariant(REDIRECT_URL_MESSAGE)
  {
    Require(IsString(redirectUrl), REDIRECT_URL_MESSAGE)
  }

  // ---------------------------------------------------------------------
  // Header maps (src/index.tsx:75-116)

  /** An object or array whose own values are all strings. */
  predicate IsStringRecord(v: JsVal) {
    (v.JObj? || v.JArr?)
    && forall i :: 0 <= i < |ObjectValues(v)| ==> ObjectValues(v)[i].JStr?
  }

  /** What a present `customHeaders` value must look like: an object with
      one to three keys, each of them `token`, `authorize` or `register`,
      each mapped to a string record. */
  predicate WellFormedCustomHeaders(headers: JsVal) {
    && headers.JObj?
    && 0 < |headers.fields| <= |AUTHORIZED_HEADER_KEYS|
    && forall i :: 0 <= i < |headers.fields| ==>
         IsAuthorizedKey(headers.fields[i].0) && IsStringRecord(headers.fields[i].1)
  }

  /** The `forEach` over the groups of a `customHeaders` map: each group
      must have `typeof` object, `Object.values` of null throws, and each
      group's values must all be strings. */
  function CheckHeaderGroups(groups: seq<JsVal>): (r: Outcome<()>)
    ensures r.Success? <==> forall i :: 0 <= i < |groups| ==> IsStringRecord(groups[i])
    ensures r.Failure? ==> r.error == Invariant(CUSTOM_HEADERS_MESSAGE) || r.error == TypeError
    ensures r == Failure(TypeError) <==>
      exists i :: 0 <= i < |groups| && groups[i].JNull?
                  && forall j :: 0 <= j < i ==> IsStringRecord(groups[j])
  {
    if |groups| == 0 then Success(())
    else
      var group := groups[0];
      var _ :- Require(TypeOf(group) == TObject, CUSTOM_HEADERS_MESSAGE);
      if group.JNull? then Failure(TypeError)
      else
        var nonStrings := Filter(ObjectValues(group), NotString);
        FilterKeepsNone(ObjectValues(group), NotString);
        var _ :- Require(|nonStrings| == 0, CUSTOM_HEADERS_MESSAGE);
        var rest := CheckHeaderGroups(groups[1..]);
        assert forall i :: 1 <= i < |groups| ==> groups[i] == groups[1..][i - 1];
        assert rest == Failure(TypeError) ==>
          exists i :: 1 <= i < |groups| && groups[i].JNull?
                      && forall j :: 1 <= j < i ==> IsStringRecord(groups[j]);
        rest
  }

  /** No index key of a string or array is an authorized header key. */
  lemma IndexKeysNotAuthorized(n: nat)
    ensures forall i :: 0 <= i < n ==> !IsAuthorizedKey(IndexKeys(n)[i])
  {
    forall i | 0 <= i < n
      ensures !IsAuthorizedKey(IndexKeys(n)[i])
    {
      var k := NatToDecimal(i);
      assert IsDigit(k[0]);
    }
  }

  /** `validateHeaders`: absent (any falsy value) passes; otherwise the keys
      must be one to three authorized names, and then every group must be a
      string record. `{}` is rejected. */
  function CheckCustomHeaders(headers: JsVal): (r: Outcome<()>)
    ensures r.Success? <==> !Truthy(headers) || WellFormedCustomHeaders(headers)
    ensures r.Failure? ==> r.error == Invariant(CUSTOM_HEADERS_MESSAGE) || r.error == TypeError
    ensures r == Failure(TypeError) <==>
      && headers.JObj?
      && 0 < |headers.fields| <= |AUTHORIZED_HEADER_KEYS|
      && (forall i :: 0 <= i < |headers.fields| ==> IsAuthorizedKey(headers.fields[i].0))
      && exists i :: 0 <= i < |headers.fields| && headers.fields[i].1.JNull?
                     && forall j :: 0 <= j < i ==> IsStringRecord(headers.fields[j].1)
  {
    if !Truthy(headers) then Success(())
    else
      var keys := ObjectKeys(headers);
      var correctKeys := Filter(keys, IsAuthorizedKey);
      FilterKeepsAll(keys, IsAuthorizedKey);
      IndexKeysNotAuthorized(|keys|);
      var _ :- Require(|keys| <= |AUTHORIZED_HEADER_KEYS| && |correctKeys| > 0
                       && |correctKeys| == |keys|, CUSTOM_HEADERS_MESSAGE);
      assert headers.JObj?;
      assert forall i :: 0 <= i < |headers.fields| ==> keys[i] == headers.fields[i].0;
      HeaderGroupsOfFields(headers.fields);
      CheckHeaderGroups(ObjectValues(headers))
  }

  /** The group check of an object, read off its fields. */
  lemma HeaderGroupsOfFields(fields: seq<(string, JsVal)>)
    ensures CheckHeaderGroups(ObjectValues(JObj(fields))).Success? <==>
      forall i :: 0 <= i < |fields| ==> IsStringRecord(fields[i].1)
    ensures CheckHeaderGroups(ObjectValues(JObj(fields))) == Failure(TypeError) <==>
      exists i :: 0 <= i < |fields| && fields[i].1.JNull?
                  && forall j :: 0 <= j < i ==> IsStringRecord(fields[j].1)
  {
    var values := ObjectValues(JObj(fields));
    assert forall i :: 0 <= i < |fields| ==> values[i] == fields[i].1;
  }

  /** `validateAdditionalHeaders`: absent passes; otherwise any object or
      array whose values are all strings, `{}` included. */
  function CheckAdditionalHeaders(headers: JsVal): (r: Outcome<()>)
    ensures r.Success? <==> !Truthy(headers) || IsStringRecord(headers)
    ensures r.Failure? ==> r.error == Invariant(ADDITIONAL_HEADERS_MESSAGE)
  {
    if !Truthy(headers) then Success(())
    else
      var _ :- Require(TypeOf(headers) == TObject, ADDITIONAL_HEADERS_MESSAGE);
      FilterKeepsNone(ObjectValues(headers), NotString);
      Require(|Filter(ObjectValues(headers), NotString)| == 0, ADDITIONAL_HEADERS_MESSAGE)
  }

  // ---------------------------------------------------------------------
  // Timeout (src/index.tsx:118-127)

  /** Every falsy value is skipped; a truthy value must be a number, with no
      range check. */
  function CheckTimeout(timeout: JsVal): (r: Outcome<()>)
    ensures r.Success? <==> timeout.JNum? || timeout in {JUndef, JNull, JBool(false), JStr("")}
    ensures r.Failure? ==> r.error == Invariant(TIMEOUT_MESSAGE)
  {
    if !Truthy(timeout) then Success(())
    else Require(TypeOf(timeout) == TNumber, TIMEOUT_MESSAGE)
  }

  // ---------------------------------------------------------------------
  // The checks of each operation, in the order the source runs them

  /** src/index.tsx:153-157. */
  function PrefetchChecks(c: JsConfig): seq<Outcome<()>> {
    [ CheckServiceEndpoints(c.issuer, c.serviceConfiguration),
      CheckClientId(c.clientId),
      CheckRedirectUrl(c.redirectUrl),
      CheckCustomHeaders(c.customHeaders),
      CheckTimeout(c.connectionTimeoutSeconds) ]
  }

  /** src/index.tsx:196-201. */
  function AuthorizeChecks(c: JsConfig): seq<Outcome<()>> {
    [ CheckServiceEndpoints(c.issuer, c.serviceConfiguration),
      CheckClientId(c.clientId),
      CheckRedirectUrl(c.redirectUrl),
      CheckCustomHeaders(c.customHeaders),
      CheckAdditionalHeaders(c.additionalHeaders),
      CheckTimeout(c.connectionTimeoutSeconds) ]
  }

  /** src/index.tsx:255-261: the authorize checks, then a truthy refresh token. */
  function RefreshChecks(c: JsConfig, o: JsOptions): seq<Outcome<()>> {
    AuthorizeChecks(c) + [Require(Truthy(o.refreshToken), REFRESH_TOKEN_MESSAGE)]
  }

  /** src/index.tsx:359-364; the client id is not among them. */
  function LogoutChecks(c: JsConfig, o: JsOptions): seq<Outcome<()>> {
    [ CheckEndSessionEndpoint(c.issuer, c.serviceConfiguration),
      CheckRedirectUrl(o.postLogoutRedirectUrl),
      Require(Truthy(o.idToken), ID_TOKEN_MESSAGE) ]
  }

  /** src/index.tsx:304-309. */
  function RevokeChecks(c: JsConfig, o: JsOptions): seq<Outcome<()>> {
    [ Require(Truthy(o.tokenToRevoke), TOKEN_TO_REVOKE_MESSAGE),
      CheckClientId(c.clientId),
      CheckRevocationEndpoint(c.issuer, c.serviceConfiguration) ]
  }

  // ---------------------------------------------------------------------
  // Properties of the header checks

  /** A sequence without repetitions has as many distinct elements as it
      has positions. */
  lemma {:induction false} DistinctCardinality(keys: seq<string>)
    requires forall i, j :: 0 <= i < j < |keys| ==> keys[i] != keys[j]
    ensures |set k | k in keys| == |keys|
  {
    if |keys| > 0 {
      var rest := keys[1..];
      DistinctCardinality(rest);
      assert (set k | k in keys) == (set k | k in rest) + {keys[0]};
      assert keys[0] !in rest;
    }
  }

  /** Since a JavaScript object has distinct keys, the `keys.length <= 3`
      test is implied by the other two: all keys authorized already bounds
      their number by three. */
  lemma CustomHeaderKeyLimitImplied(headers: JsVal)
    requires headers.JObj? && DistinctKeys(headers.fields)
    requires forall i :: 0 <= i < |headers.fields| ==> IsAuthorizedKey(headers.fields[i].0)
    ensures |headers.fields| <= |AUTHORIZED_HEADER_KEYS|
  {
    var keys := ObjectKeys(headers);
    DistinctCardinality(keys);
    var present := set k | k in keys;
    assert present <= {"token", "authorize", "register"};
    assert |{"token", "authorize", "register"}| == 3;
    SubsetCardinality(present, {"token", "authorize", "register"});
  }

  lemma SubsetCardinality(a: set<string>, b: set<string>)
    requires a <= b
    ensures |a| <= |b|
  {
    assert b == a + (b - a);
  }

  /** The edge cases of the two header checks: absent passes, `{}` fails,
      an unknown key fails, a non-string header value fails, a null group
      throws, and `{}` is fine as additional headers. */
  lemma HeaderExamples()
    ensures CheckCustomHeaders(JUndef).Success?
    ensures CheckCustomHeaders(JObj([])) == Failure(Invariant(CUSTOM_HEADERS_MESSAGE))
    ensures CheckCustomHeaders(JObj([("authorize", JObj([("a", JStr("b"))]))])).Success?
    ensures CheckCustomHeaders(JObj([("foo", JObj([("a", JStr("b"))]))])).Failure?
    ensures CheckCustomHeaders(JObj([("authorize", JObj([("a", JNum(1))]))])).Failure?
    ensures CheckAdditionalHeaders(JObj([])).Success?
  {
    var good := JObj([("authorize", JObj([("a", JStr("b"))]))]);
    assert ObjectValues(good.fields[0].1)[0] == JStr("b");
    assert IsAuthorizedKey("authorize");
    assert WellFormedCustomHeaders(good);
    var unknown := JObj([("foo", JObj([("a", JStr("b"))]))]);
    assert !IsAuthorizedKey(unknown.fields[0].0);
    var numeric := JObj([("authorize", JObj([("a", JNum(1))]))]);
    assert ObjectValues(numeric.fields[0].1)[0] == JNum(1);
    assert !IsStringRecord(numeric.fields[0].1);
  }

  /** A null group passes the `typeof` test and then makes `Object.values`
      throw. */
  lemma NullHeaderGroupThrows()
    ensures CheckCustomHeaders(JObj([("token", JNull)])) == Failure(TypeError)
  {
    var h := JObj([("token", JNull)]);
    assert IsAuthorizedKey("token");
    assert ObjectKeys(h) == ["token"];
    assert Filter(["token"], IsAuthorizedKey) == ["token"];
    assert ObjectValues(h) == [JNull];
  }
}

=== FILE: wrappers.dfy ===
/** Failure-compatible wrappers used throughout the model. */
module Wrappers {

  /** An optional value. */
  datatype Option<+T> = None | Some(value: T)

  /** Either a value or an error; usable with `:-`. */
  datatype Result<+T, +E> = Success(value: T) | Failure(error: E) {

    predicate IsFailure() {
      Failure?
    }

    function PropagateFailure<U>(): Result<U, E>
      requires Failure?
    {
      Failure(error)
    }

    function Extract(): T
      requires Success?
    {
      value
    }
  }
}
